=== FILE: README.md ===
# Campus-Connect in Dafny

Campus-Connect is a study-resource sharing site. Students sign in, upload files to a shared
library, edit and delete their own uploads, create study groups, chat in a group, and send
direct messages. This project models its core as pure Dafny functions and proves properties
of that model. The core has two halves.

* **The React client.** This is the session context with its axios interceptors, the router's
  protected routes, and the pages for auth, library, upload, edit, groups, group chat and
  direct messages, plus the resource card and message bubble components. Each event handler
  becomes one function from (page state, outcomes of the HTTP calls it awaits) to (new page
  state, requests issued, navigation). JSON values keep JavaScript's shape (`Js.Value`: undefined, null,
  booleans, numbers, strings, arrays, objects) because the client's behaviour depends on
  whether a field is missing, null or falsy.
* **The Flask API.** Each route handler becomes one function from (database, request) to
  (status, JSON body, new database). The database is a record of tables held as sequences.
  The predicate `Store.Valid` states the unique columns: every id, user email, username and
  resource file hash. A new id is one more than the largest id so far, as SQLite's rowid is.
  Query-string and form values reach the database as text. SQLite's INTEGER column affinity
  (`Store.Column`) then turns a numeric text into a number, and the driver binds a boolean as
  1 or 0. The TEXT column of a message's content (`Store.TextColumn`) turns a number into its
  decimal text. A list or an object cannot be bound at all, so a message carrying one is
  answered with 500.

The module `EndToEnd` joins the two halves. It feeds what a page sends into the handler that
receives it, and what the handler answers back into the page.

Two behaviours of the client are easy to misread:

* `login` and `register` never report a failure. They catch every error, install a demo user
  with the token `mock-token`, and return true (`Session.Login`, `Session.Register`). When the
  failure is a 401, as for a wrong password, the response interceptor has already scheduled a
  reload to `/auth`. So the demo session ends at that reload, on the sign-in page
  (`EndToEnd.WrongPasswordEndsOnSignIn`).
* A 401 removes only the stored token and forces a reload to `/auth` (`Transport.Respond`).
  The signed-in user is forgotten only by the reload (`Session.UnauthorizedLeavesUser`).

Bodies that only compute carry no `ensures` that repeats them. Each such operation is paired
with the lemma or caller that states what its result means, and the table names that member.

## Model

| member | source | states |
|---|---|---|
| Session.Logout | frontend/src/context/AuthContext.jsx:86-90 | signing out leaves no stored token, no default header and no user, and keeps the session invariant |
| Session.IsAuthenticated | frontend/src/context/AuthContext.jsx:99 | being signed in means a current user is set, whatever the stored token; `Session.UnauthorizedLeavesUser` shows the two coming apart |
| Session.LogoutIdempotent | frontend/src/context/AuthContext.jsx:86-90 | signing out twice is the same as signing out once |
| Session.Restore | frontend/src/context/AuthContext.jsx:10-30 | with no stored token, start-up asks nothing and stops loading; with a token it fetches `/auth/me` once, adopts the user on success, and on failure signs out; a 401 also schedules the reload to `/auth` |
| Session.Login | frontend/src/context/AuthContext.jsx:32-56 | one POST to the login route carrying the typed credentials; the result is always true; success stores the returned token and user, and any failure installs the demo user with the mock token; a 401 reply also leaves a reload to `/auth` pending, and any other reply leaves the pending reload as it was |
| Session.Register | frontend/src/context/AuthContext.jsx:58-84 | one POST to the register route carrying the profile; the result is always true; failure installs a demo user built from the profile; a 401 reply also leaves a reload to `/auth` pending, and any other reply leaves the pending reload as it was |
| Session.SignInEstablishesInvariant | frontend/src/context/AuthContext.jsx:32-84 | whatever the server answers, either sign-in path ends signed in with a stored token, and a user is set only together with a token |
| Session.RestorePreservesInvariant | frontend/src/context/AuthContext.jsx:20-30 | fetching the current user keeps "user only with token" |
| Session.StartUpEstablishesInvariant | frontend/src/context/AuthContext.jsx:10-18 | any start-up, with or without a stored token, ends with the invariant holding |
| Session.UnauthorizedLeavesUser | frontend/src/services/api.js:24-28 | a 401 removes the stored token but keeps the signed-in user; only the reload it forces leaves the user signed out |
| Session.OtherFailuresKeepSession | frontend/src/services/api.js:21-31 | every rejection other than 401 leaves the session untouched |
| Transport.Attach | frontend/src/services/api.js:7-18 | with a stored token the request gets `Authorization: Bearer <token>` and keeps its other headers; without one the headers are unchanged |
| Transport.BearerFollowsStoredToken | frontend/src/services/api.js:9-12 | the header sent is the stored token's, whatever default header was set; without a token the default is what goes out |
| Transport.Respond | frontend/src/services/api.js:21-31 | the outcome reaches the caller unchanged; a 401 clears the stored token and schedules `/auth`, and nothing else changes the environment |
| Routes.Match | frontend/src/App.jsx:22-66 | each route of the table selects its page exactly for its own path, letters in any case: `/` the library, `/auth` sign-in, `/groups`, `/chat/:groupId` with that id, `/messages`, `/upload`, `/resources/:id/edit` with that id; anything else is unmatched |
| Routes.Resolve | frontend/src/App.jsx:22-78 | the sign-in page always renders; a protected page renders only when signed in and otherwise redirects to `/auth`; an unknown path redirects to `/` |
| Routes.ProtectedRoutesNeedSignIn | frontend/src/App.jsx:24-63 | each of the six protected routes shows its page with a current user and redirects to `/auth` without one |
| Routes.AnonymousReachesSignIn | frontend/src/App.jsx:66-78 | a signed-out visitor reaches the sign-in page from every path within two redirects |
| Routes.SignedInNeverSentToSignIn | frontend/src/App.jsx:22-78 | a signed-in user always ends on a rendered page within one redirect, and `/` shows the library |
| AuthPage.CallFor | frontend/src/pages/AuthPage.jsx:15-24 | login mode sends email and password only; register mode sends the whole profile |
| AuthPage.Toggle | frontend/src/pages/AuthPage.jsx:76 | the switch below the form flips between login and registration; `AuthPage.ToggleSwitchesRoute` states what that changes |
| AuthPage.ToggleSwitchesRoute | frontend/src/pages/AuthPage.jsx:15-24 | after the switch the next submit posts to the other route: register from login mode, login from register mode |
| AuthPage.Submit | frontend/src/pages/AuthPage.jsx:11-26 | submitting sends one request for the mode, navigates to `/`, and leaves the user signed in right after; a 401 reply leaves a reload to `/auth` pending, any other reply leaves the pending reload as it was |
| AuthPage.SubmitNavigatesToLibrary | frontend/src/pages/AuthPage.jsx:11-26 | whatever the server answers, the in-app navigation renders the library; a reload is left pending iff the reply was 401 |
| MessageBubble.CurrentId | frontend/src/components/MessageBubble.jsx:6 | the id compared with a message's sender is undefined exactly when nobody is signed in |
| MessageBubble.Render | frontend/src/components/MessageBubble.jsx:6-12 | a bubble is on the sent side iff its `sender_id` strictly equals the user's id; the resource badge shows iff `resource_id` is truthy; sender and content are copied |
| MessageBubble.AnonymousOwnsSenderless | frontend/src/components/MessageBubble.jsx:6-9 | a message without `sender_id` looks sent when nobody is signed in |
| MessageBubble.BadgeNeedsTruthyResource | frontend/src/components/MessageBubble.jsx:12 | resource id 0 or null shows no badge; any other number does |
| GroupChat.Load | frontend/src/pages/ChatPage.jsx:19-37 | loading asks for the group and its messages and adopts both only when both arrive; the draft is kept |
| GroupChat.Send | frontend/src/pages/ChatPage.jsx:47-81 | a blank draft without a file sends nothing; a file is uploaded first and a failed upload stops the send; on success the server's reply is appended to the thread; the thread only grows, and by at most one |
| GroupChat.SendDisabled | frontend/src/pages/ChatPage.jsx:146 | the send button is disabled for blank text without a file; `GroupChat.DisabledExactlyWhenSilent` relates it to the handler |
| GroupChat.DisabledExactlyWhenSilent | frontend/src/pages/ChatPage.jsx:47-81 | the button is disabled exactly when a send would issue no request |
| GroupChat.BubbleInput | frontend/src/pages/ChatPage.jsx:105-111 | a group message is drawn with `sender_id` taken from `user_id` and the name from `uploader`; `EndToEnd.GroupMessagesNeverLookSent` shows the server sends neither |
| GroupChat.BlankSendIsSilent | frontend/src/pages/ChatPage.jsx:48 | whitespace-only text without an attachment issues no request and changes nothing |
| GroupChat.AtMostOneUpload | frontend/src/pages/ChatPage.jsx:53-73 | one send issues at most two requests, and only the first can be a file upload |
| DirectMessages.LoadUsers | frontend/src/pages/DirectMessage.jsx:14-32 | the user list excludes the signed-in user and keeps the order received, each other user as many times as received; a failure keeps the old list |
| DirectMessages.FetchConversation | frontend/src/pages/DirectMessage.jsx:34-52 | with no peer selected nothing is fetched; otherwise one GET with both ids, and its reply replaces the thread |
| DirectMessages.Select | frontend/src/pages/DirectMessage.jsx:92 | clicking a user makes them the selected peer; `DirectMessages.SelectedPeerIsFetched` states what follows |
| DirectMessages.SelectedPeerIsFetched | frontend/src/pages/DirectMessage.jsx:34-52 | selecting a peer fetches the conversation with exactly that peer, keeps them selected, and a successful reply becomes the thread |
| DirectMessages.Send | frontend/src/pages/DirectMessage.jsx:54-68 | blank text or no peer sends nothing; otherwise one POST to the peer, whose reply is appended while the draft clears; no request carries a `resource_id` |
| DirectMessages.SenderName | frontend/src/pages/DirectMessage.jsx:111-119 | a message whose sender is me is labelled with my username, every other message with the peer's |
| DirectMessages.BubbleInput | frontend/src/pages/DirectMessage.jsx:112-119 | a conversation message is drawn with the sender name `SenderName` picks; `EndToEnd.OwnDirectMessagesLookSent` shows which side it lands on |
| ResourceForm.Update | frontend/src/pages/UploadPage.jsx:19-21 | changing a form field sets that field and leaves every other field as it was |
| ResourceForm.MultipartFields | frontend/src/pages/UploadPage.jsx:33-37 | the upload form carries exactly title, description and category; a missing description goes as the text `null` |
| UploadPage.Change | frontend/src/pages/UploadPage.jsx:19-21 | an edit touches one field only and not the file or the progress flags |
| UploadPage.Submit | frontend/src/pages/UploadPage.jsx:23-55 | without a file nothing is sent and the page alerts; with a file one multipart POST; success marks the page done and schedules the move to the library; failure alerts and stays |
| UploadPage.SubmitDisabled | frontend/src/pages/UploadPage.jsx:136 | the upload button is disabled while an upload is pending or no file is chosen; `UploadPage.PendingDisablesSubmit` relates it to the handler |
| UploadPage.PendingDisablesSubmit | frontend/src/pages/UploadPage.jsx:23-55 | while the upload is in flight the submit button is disabled; an enabled submit always sends |
| EditResource.Load | frontend/src/pages/EditResource.jsx:19-37 | one GET of the resource; success fills the form from it; failure goes back to `/` |
| EndToEnd.OpeningEditorCountsADownload | frontend/src/pages/EditResource.jsx:19-37 | opening the editor on a resource whose uploader exists fills the form with the stored title, description and category, and raises that resource's download count by one, leaving the other resources alone |
| EditResource.Change | frontend/src/pages/EditResource.jsx:90-114 | a field editor changes its field only |
| EditResource.Submit | frontend/src/pages/EditResource.jsx:39-69 | the PATCH always goes first; a new file is posted as a second request only after the PATCH succeeds; the page returns to `/` iff the PATCH and any file post succeed |
| EditResource.NewFileIsSeparateResource | frontend/src/pages/EditResource.jsx:51-63 | a replacement file goes to the collection route as a new upload, never to the resource being edited |
| GroupPage.Load | frontend/src/pages/GroupPage.jsx:16-29 | one GET of the groups; success replaces the list, failure keeps it; the form is untouched |
| GroupPage.Change | frontend/src/pages/GroupPage.jsx:31-34 | an edit changes one form field only |
| GroupPage.Toggle | frontend/src/pages/GroupPage.jsx:63-66 | the button flips the form's visibility and nothing else |
| GroupPage.Submit | frontend/src/pages/GroupPage.jsx:36-46 | one POST of the form; on success the reply's `group` is appended and the form resets and hides; a failure, or a null body whose `group` cannot be read, changes nothing |
| Library.Visible | frontend/src/pages/LibraryPage.jsx:26-33 | the visible resources are, in their original order and with their multiplicity, exactly those matching both the search and the category filter |
| Library.EverythingByDefault | frontend/src/pages/LibraryPage.jsx:26-33 | an empty search with the filter `all` shows the whole library |
| Library.NullDescriptionMatchesByTitle | frontend/src/pages/LibraryPage.jsx:27-28 | a resource without a description matches exactly when its title contains the query, ignoring case |
| Library.Categories | frontend/src/pages/LibraryPage.jsx:35 | the category menu lists every category in use, each once, in order of first appearance |
| Library.Remove | frontend/src/pages/LibraryPage.jsx:37-39 | removing an id drops every resource with that id and keeps the others, in order and with their multiplicity |
| ResourceCard.IconFor | frontend/src/components/ResourceCard.jsx:10-25 | the lower-cased last extension decides the icon: document iff pdf, memo iff docx, chart iff pptx, picture iff jpg or png, and the generic icon iff none of these |
| ResourceCard.ShowsOwnerActions | frontend/src/components/ResourceCard.jsx:70 | the edit and delete controls are shown only to a signed-in user whose id is the uploader's; `EndToEnd.ControlsShownExactlyToOwner` matches this to the server |
| ResourceCard.Delete | frontend/src/components/ResourceCard.jsx:27-36 | an unconfirmed delete sends nothing; a confirmed one sends one DELETE; the card is removed from the list iff the delete succeeded |
| Store.NextId | backend/models.py:6 | a new id is positive and larger than every existing id |
| Store.Column | backend/models.py:67-83 | in an INTEGER column numeric text becomes that number, a boolean becomes 1 or 0, a missing value becomes null, and any other value is kept |
| Store.TextColumn | backend/models.py:70 | in the TEXT content column a number or boolean becomes text that reads back as the same number; text is kept; only a missing or null value gives null |
| AuthApi.RegistrationErrors | backend/app.py:53-66 | one message per broken rule: missing email or no `@`; username missing or shorter than 3; password missing or shorter than 8; missing full name |
| AuthApi.Register | backend/app.py:50-95 | 400 iff a rule is broken; 409 iff the email or username is taken; otherwise 201 and exactly one new user with the digested password and default field of study; every other answer writes nothing; uniqueness is kept |
| AuthApi.UserByEmail | backend/app.py:100 | finds the user with that email if there is one |
| AuthApi.Login | backend/app.py:97-117 | never writes; 500 iff the email is known but no password text is given, which bcrypt cannot check; 200 only for a user whose email and password match, whose profile is returned; otherwise 401 with `Invalid credentials` |
| AuthApi.LoginSucceedsIffCredentialsMatch | backend/app.py:97-117 | on a valid database, sign-in succeeds iff some user has that email and the password checks against their digest |
| ResourceApi.AllowedFile | backend/app.py:38-40 | a name is accepted iff it has a dot and the text after its last dot, lower-cased, is one of pdf, docx, pptx, txt, jpg, png |
| ResourceApi.SuffixFollowsLastDot | backend/app.py:40 | the extension taken is the text after the last dot |
| ResourceApi.Upload | backend/app.py:160-215 | 400 iff there is no file, its name is empty or its type is not allowed; 409 iff the same content is stored, naming that resource; otherwise 201 with exactly one new resource owned by the uploader; uniqueness is kept |
| ResourceApi.SameContentStoredOnce | backend/app.py:182-191 | uploading the same content a second time is refused with 409 and writes nothing |
| ResourceApi.GetResource | backend/app.py:217-235 | 404 iff the id is unknown, writing nothing; otherwise the download count rises by exactly one and nothing else changes; 500 iff the resource's owner does not exist; 200 returns the resource |
| ResourceApi.Patched | backend/app.py:250-255 | a patch changes exactly the fields present in the request and keeps id, owner and hash |
| ResourceApi.UpdateOrDelete | backend/app.py:237-272 | 404 iff the id is unknown; 403 iff the resource belongs to someone else; 400 iff an owner's patch has a title shorter than 3; otherwise 200 with that one resource patched, or deleted with every message that named it detached; every refusal writes nothing; uniqueness is kept |
| ResourceApi.DetachMessages | backend/models.py:41 | after a delete no group message names the resource: those that did now hold a null `resource_id`, and every other message, and every other field, is as it was |
| ResourceApi.DetachDirects | backend/models.py:42 | the same for direct messages |
| ResourceApi.DeleteRemovesExactlyThatId | backend/app.py:266-272 | a successful delete removes exactly the resource with that id and keeps every other |
| ResourceApi.OnlyOwnerWrites | backend/app.py:244-245 | whoever is not the owner gets 403 and the database is unchanged |
| GroupApi.GroupErrors | backend/app.py:279-287 | one message for a missing name and one for a missing category |
| GroupApi.CreateGroup | backend/app.py:275-314 | 400 iff name or category is missing; otherwise 201 with one new group and its creator's owner membership; the reply carries only id and name; uniqueness is kept |
| MessageApi.SentBody | backend/app.py:367-370 | the reply carries the message and its id and nothing else |
| MessageApi.SendMessage | backend/app.py:345-370 | 400 iff neither content nor resource id is truthy; 500 iff otherwise the content is null (NOT NULL) or the content, group id or resource id is a list or object the driver cannot bind; otherwise 201 and one new message, its content stored as text and its group and resource ids stored with column affinity |
| MessageApi.BooleanGroupIdIsOne | backend/app.py:357-365 | a message posted with group id `true` is accepted, stored with group id 1, and listed in group 1 |
| MessageApi.ListGroupIdRefused | backend/app.py:357-365 | a message posted with a list as group id is answered with 500 |
| MessageApi.DirectErrors | backend/app.py:398-404 | a direct message needs a receiver and either content or a resource |
| MessageApi.SendDirect | backend/app.py:392-419 | 400 iff the receiver is missing or there is nothing to send; 500 iff otherwise the content is null (NOT NULL) or the content, receiver id or resource id is a list or object the driver cannot bind; otherwise 201 and one new unread direct message from the sender, its content stored as text |
| MessageApi.GroupThread | backend/app.py:380 | a group's thread is exactly that group's messages, oldest first |
| MessageApi.MessageKeysOmitSenderId | backend/app.py:381-389 | a thread item names its sender by `sender` and carries no `user_id` or `uploader` |
| MessageApi.MessageJson | backend/app.py:381-389 | every thread item has the same fixed set of keys |
| MessageApi.ThreadJson | backend/app.py:381-389 | the thread serialises iff every author exists; each item carries its message's id, content and `resource_id` |
| MessageApi.GetMessages | backend/app.py:372-389 | never writes; 400 iff no group is given; 500 iff some message of the group names an author that does not exist; 200 gives one item per thread message, in order, with the message's id and `resource_id` and no sender id |
| MessageApi.OrphanInThread | backend/app.py:380-389 | the thread holds a message with a missing author iff the group's stored messages do |
| MessageApi.Conversation | backend/app.py:430-435 | the conversation is exactly the direct messages between the two users, in either direction, oldest first |
| MessageApi.ConversationSymmetric | backend/app.py:430-435 | the conversation of a and b is the conversation of b and a |
| MessageApi.DirectJson | backend/app.py:437-447 | a direct item carries its sender id |
| MessageApi.ConversationJson | backend/app.py:437-447 | one item per conversation message, in order |
| MessageApi.OrphanInConversation | backend/app.py:430-447 | the conversation holds a message naming a missing user iff the pair's stored messages do |
| MessageApi.GetDirect | backend/app.py:421-447 | never writes; 400 iff either user id is missing; 500 iff some message between the pair names a sender or receiver that does not exist; otherwise 200 with one item per message of the pair, in order, carrying its id |
| MessageApi.GetDirectSymmetric | backend/app.py:421-447 | swapping the two user ids gives the same answer |
| EndToEnd.NumberArgRoundTrip | frontend/src/pages/DirectMessage.jsx:39-44 | a numeric id sent as a query argument is stored back as that number |
| EndToEnd.GroupMessagesNeverLookSent | frontend/src/pages/ChatPage.jsx:104-112 | when every author in the group exists the thread is served with 200; it has no `user_id`, so a signed-in user never sees their own group message on the sent side and no sender name is shown |
| EndToEnd.LoadedChatHoldsTheThread | frontend/src/pages/ChatPage.jsx:19-37 | when every author exists, the server answers the chat's message request with the group's thread and the page adopts it, one item per stored message, in order, with matching ids |
| EndToEnd.PostedMessageAppendedAsAcknowledgement | frontend/src/pages/ChatPage.jsx:69-77 | a posted message is accepted exactly when its attachment id can be bound, and is then stored in the group's thread with its text; the bubble appended from the reply has no content |
| EndToEnd.DuplicateAttachmentSendsNothing | frontend/src/pages/ChatPage.jsx:53-67 | attaching a file whose content is stored already gets 409 from the upload, so no message is posted |
| EndToEnd.ConversationQuerySelectsThePair | frontend/src/pages/DirectMessage.jsx:39-44 | the conversation query names the two users, so the server answers with their conversation |
| EndToEnd.DirectPostStored | backend/app.py:392-419 | a direct message from the page is stored with its text, the sender and the peer, and answered with 201 iff the peer id is not 0 |
| EndToEnd.DirectAcknowledgementLooksReceived | frontend/src/pages/DirectMessage.jsx:54-68 | a sent direct message is stored, but the reply the page appends has no content, sits on the received side and is labelled with the peer's name |
| EndToEnd.OwnDirectMessagesLookSent | frontend/src/pages/DirectMessage.jsx:111-119 | when no message of the pair names a missing user the conversation is served with 200, and a message is on the sent side and labelled with my name iff I sent it |
| EndToEnd.RefusedRegistrationStillSignsIn | frontend/src/context/AuthContext.jsx:71-83 | a password shorter than 8 is refused by the server with 400, yet the client is signed in as a demo user |
| EndToEnd.WrongPasswordEndsOnSignIn | frontend/src/services/api.js:21-31 | a wrong password gets 401; the page is signed in as the demo user and navigates to the library, but the interceptor's pending reload to `/auth` restarts without a user and shows the sign-in page |
| EndToEnd.MockSessionEndsOnReload | frontend/src/context/AuthContext.jsx:43-55 | the demo session survives until a reload, when its fake token cannot fetch a user and the user is signed out |
| EndToEnd.IconAndAllowListDisagree | frontend/src/components/ResourceCard.jsx:10-25 | the card shows a document icon for the name `pdf`, which the server refuses, and the generic icon for an accepted `.txt` |
| EndToEnd.SpecificIconImpliesAllowed | frontend/src/components/ResourceCard.jsx:10-25 | a dotted name with a specific icon is always accepted by the server |
| EndToEnd.PickerMatchesAllowList | frontend/src/components/FileUpload.jsx:16 | the file picker offers exactly the extensions the server accepts |
| EndToEnd.UploadStoresFormTexts | frontend/src/pages/UploadPage.jsx:33-37 | the page sends all three form fields, so an accepted upload stores the form's title, description and category rather than the server's defaults |
| EndToEnd.EditorPostsNullDescriptionAsText | frontend/src/pages/EditResource.jsx:51-57 | when the edited resource had a null description, the editor's file post sends the text `null`, and an accepted upload stores that text as the new resource's description |
| EndToEnd.DeleteAgreesWithServer | frontend/src/components/ResourceCard.jsx:27-36 | when the server deletes, the card removes that id from the library, as the server did |
| EndToEnd.DeletedResourceLeavesThreads | frontend/src/components/MessageBubble.jsx:12 | after a resource is deleted, no item of any group thread names its id any more, so no chat bubble shows a badge for it |
| EndToEnd.CreatedGroupLacksDetails | frontend/src/pages/GroupPage.jsx:36-46 | a created group is stored, but the page appends a reply holding only id and name |
| EndToEnd.ControlsShownExactlyToOwner | frontend/src/components/ResourceCard.jsx:70 | the edit and delete controls are shown exactly to the user whose delete the server performs |
| EndToEnd.ShortTitleStaysOnEditor | frontend/src/pages/EditResource.jsx:39-69 | a title shorter than 3 is refused with 400 and no write, and the editor stays put and posts no file |

## Left out

- The base URL: the client's axios base `/api` combined with paths that already begin with `/api`. Request paths are modelled as the route the server handles.
- Concurrency: overlapping requests, stale replies and unmounts. Each handler is one atomic step over the outcomes it awaits.
- Presentation: date formatting, animations, the upload success timer's delay (modelled as a flag), `alert` wording beyond which alert is raised, and layout.
- Unicode case folding: `toLowerCase` and `.lower()` are modelled on ASCII letters. This is exact for the allow-list and icon tests, since no other character lowers to one of their letters.
- JavaScript numbers: these are modelled as integers.
- EndToEnd.Texts: `request.get_json()` hands the register, group and patch handlers every JSON value of the body. The model passes them only the text fields, so a number or a list where a handler expects text is not modelled. Message content may be text, null or missing.
- File storage: secure_filename, the uuid prefix and writing files become function parameters. SHA-256 is a parameter. bcrypt is modelled as equality of the digest. A password that is missing or not text is `None`, on which bcrypt raises (the 500 of `AuthApi.Login`).
- JWT: issuing and verifying tokens is a parameter. The 422 answer to a malformed token such as `mock-token` is not modelled; the client sees it as a non-401 failure.
- Other routes: `/api/auth/refresh`, `/api/auth/me` on the server side, listing resources, groups and users, reading one group, and file download.
- seed.py, Navbar and GroupCard: these are not part of this model.
- `created_at`: it is an integer supplied by the caller, not an ISO-format timestamp. The resource JSON of `ResourceApi.GetResource` leaves it out.
- MessageApi.GroupThread: the order of messages created at the same instant is not fixed by the database. The model states sorted by time, and a permutation of the group's messages.
- Store.Column: SQLite's affinity for texts such as `+3` or ` 3` (signs and spaces) is not modelled. Only plain optionally-negative digit strings become numbers. A JSON number with a fraction, which SQLite would keep as REAL, does not arise because numbers are integers here.
- Database failures other than the NOT NULL content column: foreign-key failures and the like, and the commit errors they raise.
- The library page's initial fetch: only filtering, categories and removal are modelled.

=== FILE: auth_page.dfy ===
/**
 * The sign-in page (frontend/src/pages/AuthPage.jsx): a login/register mode
 * switch and a submit that calls the matching session handler and then
 * navigates to `/` whatever the call resolved to.
 */
module AuthPage {
  import opened Wrappers
  import opened Http
  import Session
  import Routes
  import Transport

  /** The form's fields as `FormData.get` reads them; fields absent in login mode are unused. */
  datatype Form = Form(email: string, password: string, username: string, fullName: string)

  /** Which handler a submit calls. */
  datatype Call = LoginCall(email: string, password: string) | RegisterCall(profile: Session.Profile)

  datatype Submitted = Submitted(state: Session.State, requests: seq<Request>, navigateTo: Routes.Path)

  /** The "Need to register?" / "Already have an account?" button. */
  function Toggle(isLogin: bool): bool {
    !isLogin
  }

  /**
   * The switch decides which route the next submit posts to: from login mode
   * it leads to registration and back, while the typed fields stay.
   */
  lemma ToggleSwitchesRoute(s: Session.State, isLogin: bool, f: Form, reply: Outcome<Session.AuthReply>, now: int)
    ensures Submit(s, Toggle(isLogin), f, reply, now).requests[0].path
            == (if isLogin then Session.RegisterPath else Session.LoginPath)
    ensures Submit(s, isLogin, f, reply, now).requests[0].path
            != Submit(s, Toggle(isLogin), f, reply, now).requests[0].path
  {
  }

  /** The handler call `handleSubmit` makes in the current mode. */
  function CallFor(isLogin: bool, f: Form): (c: Call)
    ensures isLogin <==> c.LoginCall?
    ensures isLogin ==> c == LoginCall(f.email, f.password)
    ensures !isLogin ==> c.profile == Session.Profile(f.email, f.username, f.password, f.fullName)
  {
    if isLogin then LoginCall(f.email, f.password)
    else RegisterCall(Session.Profile(f.email, f.username, f.password, f.fullName))
  }

  /** `handleSubmit`: await the chosen handler, then `navigate('/')`. */
  function Submit(s: Session.State, isLogin: bool, f: Form, reply: Outcome<Session.AuthReply>, now: int): (r: Submitted)
    ensures isLogin ==> r.requests == [PostJson(Session.LoginPath, Session.LoginBody(f.email, f.password))]
    ensures !isLogin ==> r.requests == [PostJson(Session.RegisterPath, Session.RegisterBody(CallFor(isLogin, f).profile))]
    ensures r.navigateTo == Routes.Root
    ensures Session.IsAuthenticated(r.state)
    ensures reply == Err(Some(401)) ==> r.state.env.reloadTo == Some(Transport.AuthPath)
    ensures reply != Err(Some(401)) ==> r.state.env.reloadTo == s.env.reloadTo
  {
    match CallFor(isLogin, f)
    case LoginCall(email, password) =>
      var a := Session.Login(s, email, password, reply, now);
      Submitted(a.state, a.requests, Routes.Root)
    case RegisterCall(p) =>
      var a := Session.Register(s, p, reply, now);
      Submitted(a.state, a.requests, Routes.Root)
  }

  /**
   * "Enter any credentials to continue": the in-app navigation after every
   * submit, accepted or refused by the server, renders the library. Only a
   * 401 refusal also leaves a reload to `/auth` pending, which takes the
   * browser away from it; every other answer leaves no reload behind.
   */
  lemma SubmitNavigatesToLibrary(s: Session.State, isLogin: bool, f: Form, reply: Outcome<Session.AuthReply>, now: int)
    requires s.env.reloadTo.None?
    ensures var r := Submit(s, isLogin, f, reply, now);
      && Routes.Settle(r.navigateTo, Session.IsAuthenticated(r.state), 0) == Routes.Render(Routes.Library)
      && (r.state.env.reloadTo.None? <==> reply != Err(Some(401)))
  {
    Routes.SignedInNeverSentToSignIn(Routes.Root);
  }
}

=== FILE: backend_auth.dfy ===
/**
 * The server's `register` and `login` handlers (backend/app.py). Request
 * fields are strings; the password hash and the token issuer are the
 * parameters `digest` and `issue`, so checking a password is comparing
 * digests.
 */
module AuthApi {
  import opened Wrappers
  import Js
  import opened Store

  const EmailMessage := "Valid email is required"
  const UsernameMessage := "Username must be at least 3 characters"
  const PasswordMessage := "Password must be at least 8 characters"
  const FullNameMessage := "Full name is required"
  const DefaultFieldOfStudy := "General Studies"
  const InvalidCredentials := "Invalid credentials"

  /** The validation map of `register`: one entry per rule the request breaks. */
  function RegistrationErrors(data: map<string, string>): (e: map<string, string>)
    ensures "email" in e <==> !Given(data, "email") || '@' !in data["email"]
    ensures "username" in e <==> !Given(data, "username") || |data["username"]| < 3
    ensures "password" in e <==> !Given(data, "password") || |data["password"]| < 8
    ensures "full_name" in e <==> !Given(data, "full_name")
    ensures e.Keys <= {"email", "username", "password", "full_name"}
    ensures "email" in e ==> e["email"] == EmailMessage
    ensures "username" in e ==> e["username"] == UsernameMessage
    ensures "password" in e ==> e["password"] == PasswordMessage
    ensures "full_name" in e ==> e["full_name"] == FullNameMessage
  {
    var e0: map<string, string> := map[];
    var e1 := if !Given(data, "email") || '@' !in data["email"] then e0["email" := EmailMessage] else e0;
    var e2 := if !Given(data, "username") || |data["username"]| < 3 then e1["username" := UsernameMessage] else e1;
    var e3 := if !Given(data, "password") || |data["password"]| < 8 then e2["password" := PasswordMessage] else e2;
    if !Given(data, "full_name") then e3["full_name" := FullNameMessage] else e3
  }

  /** A request the validation map accepts carries every field the insert reads. */
  lemma AcceptedRequestIsComplete(data: map<string, string>)
    requires RegistrationErrors(data) == map[]
    ensures "email" in data && "username" in data && "password" in data && "full_name" in data
    ensures '@' in data["email"] && |data["username"]| >= 3 && |data["password"]| >= 8 && data["full_name"] != ""
  {
    assert "email" !in RegistrationErrors(data);
    assert "username" !in RegistrationErrors(data);
    assert "password" !in RegistrationErrors(data);
    assert "full_name" !in RegistrationErrors(data);
  }

  function ErrorsBody(e: map<string, string>): Js.Value {
    Js.Obj(map["errors" := Js.Obj(map k | k in e :: Js.Str(e[k]))])
  }

  predicate EmailTaken(db: Db, email: string) {
    exists i :: 0 <= i < |db.users| && db.users[i].email == email
  }

  predicate UsernameTaken(db: Db, username: string) {
    exists i :: 0 <= i < |db.users| && db.users[i].username == username
  }

  /** The public view of a user in auth replies. */
  function UserJson(u: UserRec): Js.Value {
    Js.Obj(map["id" := Js.Num(u.id), "username" := Js.Str(u.username),
               "email" := Js.Str(u.email), "full_name" := Js.Str(u.fullName)])
  }

  /** The user `register` inserts for a request that passed validation. */
  function NewUser(db: Db, data: map<string, string>, digest: string -> string): UserRec
    requires RegistrationErrors(data) == map[]
  {
    AcceptedRequestIsComplete(data);
    UserRec(NextId(UserIds(db)), data["email"], data["username"], data["full_name"],
            Some(if "field_of_study" in data then data["field_of_study"] else DefaultFieldOfStudy),
            digest(data["password"]))
  }

  /**
   * `register`: 400 with the validation map, 409 when the email or the
   * username is taken, otherwise 201 after inserting one user.
   */
  function Register(db: Db, data: map<string, string>, digest: string -> string, issue: int -> string): (r: Response)
    ensures r.status in {201, 400, 409}
    ensures r.status == 400 <==> RegistrationErrors(data) != map[]
    ensures r.status == 400 ==> r.body == ErrorsBody(RegistrationErrors(data))
    ensures r.status == 409 <==>
      RegistrationErrors(data) == map[] && (EmailTaken(db, data["email"]) || UsernameTaken(db, data["username"]))
    ensures r.status != 201 ==> r.db == db
    ensures r.status == 201 ==>
      && RegistrationErrors(data) == map[]
      && r.db == db.(users := db.users + [NewUser(db, data, digest)])
      && NewUser(db, data, digest).email == data["email"]
      && NewUser(db, data, digest).username == data["username"]
      && NewUser(db, data, digest).fullName == data["full_name"]
      && NewUser(db, data, digest).password == digest(data["password"])
      && NewUser(db, data, digest).fieldOfStudy
         == Some(if "field_of_study" in data then data["field_of_study"] else DefaultFieldOfStudy)
    ensures Valid(db) ==> Valid(r.db)
  {
    var errors := RegistrationErrors(data);
    if errors != map[] then Response(400, ErrorsBody(errors), db)
    else if EmailTaken(db, data["email"]) then Response(409, Error("Email already exists"), db)
    else if UsernameTaken(db, data["username"]) then Response(409, Error("Username already exists"), db)
    else
      var u := NewUser(db, data, digest);
      InsertKeepsValid(db, u);
      Response(201, Js.Obj(map["message" := Js.Str("User registered successfully"),
                               "access_token" := Js.Str(issue(u.id)),
                               "user" := UserJson(u)]),
               db.(users := db.users + [u]))
  }

  /** A user with a fresh id, email and username can be added without breaking a unique key. */
  lemma InsertKeepsValid(db: Db, u: UserRec)
    requires u.id == NextId(UserIds(db))
    requires !EmailTaken(db, u.email) && !UsernameTaken(db, u.username)
    ensures Valid(db) ==> Valid(db.(users := db.users + [u]))
  {
    if Valid(db) {
      assert forall i :: 0 <= i < |db.users| ==> db.users[i].id == UserIds(db)[i];
      UniqueAppend(db.users, (x: UserRec) => x.id, u);
      UniqueAppend(db.users, (x: UserRec) => x.email, u);
      UniqueAppend(db.users, (x: UserRec) => x.username, u);
    }
  }

  /** `User.query.filter_by(email=...).first()` */
  function UserByEmail(users: seq<UserRec>, email: string): (r: Option<UserRec>)
    ensures r.Some? ==> r.value in users && r.value.email == email
    ensures r.None? <==> forall i :: 0 <= i < |users| ==> users[i].email != email
  {
    if users == [] then None
    else if users[0].email == email then Some(users[0])
    else UserByEmail(users[1..], email)
  }

  /** The password check, for a password that is there: its digest is the stored one. */
  predicate PasswordMatches(u: UserRec, password: Option<string>, digest: string -> string) {
    password.Some? && digest(password.value) == u.password
  }

  /**
   * `login`: the same 401 for an unknown email and for a wrong password;
   * otherwise 200 with both tokens and the user. Nothing is written. A
   * password that is missing (or not text, which `None` also stands for)
   * reaches bcrypt only for a known email, and bcrypt raises on it: 500.
   */
  function Login(db: Db, email: Option<string>, password: Option<string>, digest: string -> string,
                 issueAccess: int -> string, issueRefresh: int -> string): (r: Response)
    ensures r.db == db
    ensures r.status in {200, 401, 500}
    ensures r.status == 500 <==>
      email.Some? && password.None? && exists i :: 0 <= i < |db.users| && db.users[i].email == email.value
    ensures r.status == 401 ==> r.body == Error(InvalidCredentials)
    ensures r.status == 200 ==>
      && email.Some? && r.body.Obj? && "user" in r.body.fields
      && exists i :: 0 <= i < |db.users| && db.users[i].email == email.value
                     && PasswordMatches(db.users[i], password, digest)
                     && r.body.fields["user"] == UserJson(db.users[i])
  {
    match email
    case None => Response(401, Error(InvalidCredentials), db)
    case Some(e) =>
      match UserByEmail(db.users, e)
      case None => Response(401, Error(InvalidCredentials), db)
      case Some(u) =>
        if password.None? then Response(500, NoJson, db)
        else if !PasswordMatches(u, password, digest) then Response(401, Error(InvalidCredentials), db)
        else Response(200, Js.Obj(map["access_token" := Js.Str(issueAccess(u.id)),
                                      "refresh_token" := Js.Str(issueRefresh(u.id)),
                                      "user" := UserJson(u)]), db)
  }

  /**
   * With emails unique, login succeeds exactly when some user has that email
   * and the password matches it.
   */
  lemma LoginSucceedsIffCredentialsMatch(db: Db, email: string, password: Option<string>, digest: string -> string,
                                         issueAccess: int -> string, issueRefresh: int -> string)
    requires Valid(db)
    ensures Login(db, Some(email), password, digest, issueAccess, issueRefresh).status == 200 <==>
      exists i :: 0 <= i < |db.users| && db.users[i].email == email && PasswordMatches(db.users[i], password, digest)
  {
    var r := Login(db, Some(email), password, digest, issueAccess, issueRefresh);
    if exists i :: 0 <= i < |db.users| && db.users[i].email == email && PasswordMatches(db.users[i], password, digest) {
      var i :| 0 <= i < |db.users| && db.users[i].email == email && PasswordMatches(db.users[i], password, digest);
      var u := UserByEmail(db.users, email);
      var j :| 0 <= j < |db.users| && db.users[j] == u.value;
      assert i == j;
    }
  }
}

=== FILE: backend_groups.dfy ===
/** The server's `create_group` handler (backend/app.py): a group and its owner's membership. */
module GroupApi {
  import Js
  import opened Store

  const NameMessage := "Group name is required"
  const CategoryMessage := "Category is required"
  const OwnerRole := "owner"

  /** Both rules are checked before answering, so a request missing both gets both messages. */
  function GroupErrors(data: map<string, string>): (e: map<string, string>)
    ensures "name" in e <==> !Given(data, "name")
    ensures "category" in e <==> !Given(data, "category")
    ensures e.Keys <= {"name", "category"}
    ensures "name" in e ==> e["name"] == NameMessage
    ensures "category" in e ==> e["category"] == CategoryMessage
  {
    var e0: map<string, string> := map[];
    var e1 := if !Given(data, "name") then e0["name" := NameMessage] else e0;
    if !Given(data, "category") then e1["category" := CategoryMessage] else e1
  }

  /**
   * `create_group`: 400 with the validation map and nothing written;
   * otherwise 201 after adding one group created by `uid` and one `owner`
   * membership of `uid` in it.
   */
  function CreateGroup(db: Db, data: map<string, string>, uid: int): (r: Response)
    ensures r.status in {201, 400}
    ensures r.status == 400 <==> !Given(data, "name") || !Given(data, "category")
    ensures r.status == 400 ==> r.db == db
    ensures r.status == 201 ==>
      && |r.db.groups| == |db.groups| + 1 && r.db.groups[..|db.groups|] == db.groups
      && |r.db.members| == |db.members| + 1 && r.db.members[..|db.members|] == db.members
      && r.db == db.(groups := r.db.groups, members := r.db.members)
      && var g := r.db.groups[|db.groups|];
         var m := r.db.members[|db.members|];
         && g.name == data["name"] && g.category == data["category"] && g.createdBy == uid
         && g.description == (if "description" in data then data["description"] else "")
         && m.userId == uid && m.groupId == g.id && m.role == OwnerRole
         && r.body.Obj? && "group" in r.body.fields
         && r.body.fields["group"] == Js.Obj(map["id" := Js.Num(g.id), "name" := Js.Str(g.name)])
    ensures Valid(db) ==> Valid(r.db)
  {
    var errors := GroupErrors(data);
    if errors != map[] then
      Response(400, Js.Obj(map["errors" := Js.Obj(map k | k in errors :: Js.Str(errors[k]))]), db)
    else
      assert "name" !in errors && "category" !in errors;
      var g := GroupRec(NextId(GroupIds(db)), data["name"],
                        if "description" in data then data["description"] else "", data["category"], uid);
      var m := MemberRec(NextId(MemberIds(db)), uid, g.id, OwnerRole);
      InsertKeepsValid(db, g, m);
      Response(201, Js.Obj(map["message" := Js.Str("Group created"),
                               "group" := Js.Obj(map["id" := Js.Num(g.id), "name" := Js.Str(g.name)])]),
               db.(groups := db.groups + [g], members := db.members + [m]))
  }

  lemma InsertKeepsValid(db: Db, g: GroupRec, m: MemberRec)
    requires g.id == NextId(GroupIds(db)) && m.id == NextId(MemberIds(db))
    ensures Valid(db) ==> Valid(db.(groups := db.groups + [g], members := db.members + [m]))
  {
    if Valid(db) {
      assert forall i :: 0 <= i < |db.groups| ==> db.groups[i].id == GroupIds(db)[i];
      assert forall i :: 0 <= i < |db.members| ==> db.members[i].id == MemberIds(db)[i];
      UniqueAppend(db.groups, (x: GroupRec) => x.id, g);
      UniqueAppend(db.members, (x: MemberRec) => x.id, m);
    }
  }
}

=== FILE: backend_messages.dfy ===
/**
 * The server's message handlers (backend/app.py): posting to a group or to
 * a peer, listing a group's messages, and the two-way conversation between
 * two users. Request bodies are decoded JSON objects; query arguments are
 * the raw text of the query string; `now` is the insert time.
 */
module MessageApi {
  import opened Wrappers
  import Js
  import Seqs
  import Strings
  import opened Store

  const ContentMessage := "Message content or resource is required"
  const ReceiverMessage := "Receiver ID is required"

  /** `data.get(k)` is truthy in Python's sense. */
  predicate Truthy(data: map<string, Js.Value>, k: string) {
    Js.PyTruthy(Lookup(data, k))
  }

  /** `data.get('content', '')` */
  function ContentOf(data: map<string, Js.Value>): Js.Value {
    if "content" in data then data["content"] else Js.Str("")
  }

  /**
   * The content and the named id values can all be bound by the driver; a
   * list or an object among them makes the commit raise.
   */
  predicate Storable(data: map<string, Js.Value>, ids: set<string>) {
    Bindable(ContentOf(data)) && forall k | k in ids :: Bindable(Lookup(data, k))
  }

  /** `content` is missing (None) or null: the NOT NULL constraint of its column refuses it. */
  predicate NoContent(data: map<string, Js.Value>) {
    Js.Nullish(ContentOf(data))
  }

  function ErrorsBody(e: map<string, string>): Js.Value {
    Js.Obj(map["errors" := Js.Obj(map k | k in e :: Js.Str(e[k]))])
  }

  /** The reply to an accepted post: a confirmation and the new id, never the message itself. */
  function SentBody(message: string, id: int): (b: Js.Value)
    ensures b.Obj? && b.fields.Keys == {"message", "message_id"}
  {
    Js.Obj(map["message" := Js.Str(message), "message_id" := Js.Num(id)])
  }

  /**
   * `send_message`: 400 when neither the content nor the resource id is
   * truthy; a null content breaks the column's NOT NULL constraint, and a
   * list or object the driver cannot bind makes the commit raise (500);
   * otherwise one message by `uid` is stored, its content defaulting to the
   * empty string, and its content and ids stored as SQLite keeps them.
   */
  function SendMessage(db: Db, data: map<string, Js.Value>, uid: int, now: int): (r: Response)
    ensures r.status in {201, 400, 500}
    ensures r.status == 400 <==> !Truthy(data, "content") && !Truthy(data, "resource_id")
    ensures r.status == 400 ==> r.body == ErrorsBody(map["content" := ContentMessage])
    ensures r.status == 500 <==>
      && (Truthy(data, "content") || Truthy(data, "resource_id"))
      && (NoContent(data) || !Storable(data, {"group_id", "resource_id"}))
    ensures r.status != 201 ==> r.db == db
    ensures r.status == 201 ==>
      && |r.db.messages| == |db.messages| + 1 && r.db == db.(messages := r.db.messages)
      && r.db.messages[..|db.messages|] == db.messages
      && var m := r.db.messages[|db.messages|];
         && Bindable(ContentOf(data)) && m.content == TextColumn(ContentOf(data)) && m.content.Str?
         && m.userId == uid && m.createdAt == now
         && m.groupId == Column(Lookup(data, "group_id")) && m.resourceId == Column(Lookup(data, "resource_id"))
         && r.body == SentBody("Message sent", m.id)
    ensures Valid(db) ==> Valid(r.db)
  {
    if !Truthy(data, "content") && !Truthy(data, "resource_id") then
      Response(400, ErrorsBody(map["content" := ContentMessage]), db)
    else if NoContent(data) || !Storable(data, {"group_id", "resource_id"}) then
      Response(500, NoJson, db)
    else
      var m := MessageRec(NextId(MessageIds(db)), TextColumn(ContentOf(data)), uid, Column(Lookup(data, "group_id")),
                          Column(Lookup(data, "resource_id")), now);
      assert forall i :: 0 <= i < |db.messages| ==> db.messages[i].id == MessageIds(db)[i];
      UniqueAppend(db.messages, (x: MessageRec) => x.id, m);
      Response(201, SentBody("Message sent", m.id), db.(messages := db.messages + [m]))
  }

  /** The errors of `send_direct_message`: both rules are checked before answering. */
  function DirectErrors(data: map<string, Js.Value>): (e: map<string, string>)
    ensures "content" in e <==> !Truthy(data, "content") && !Truthy(data, "resource_id")
    ensures "receiver_id" in e <==> !Truthy(data, "receiver_id")
    ensures e.Keys <= {"content", "receiver_id"}
    ensures "content" in e ==> e["content"] == ContentMessage
    ensures "receiver_id" in e ==> e["receiver_id"] == ReceiverMessage
  {
    var e0: map<string, string> := map[];
    var e1 := if !Truthy(data, "content") && !Truthy(data, "resource_id") then e0["content" := ContentMessage] else e0;
    if !Truthy(data, "receiver_id") then e1["receiver_id" := ReceiverMessage] else e1
  }

  /**
   * `send_direct_message`: as `send_message`, and a receiver id is required
   * too; the stored message is unread.
   */
  function SendDirect(db: Db, data: map<string, Js.Value>, uid: int, now: int): (r: Response)
    ensures r.status in {201, 400, 500}
    ensures r.status == 400 <==> DirectErrors(data) != map[]
    ensures r.status == 400 ==> r.body == ErrorsBody(DirectErrors(data))
    ensures r.status == 500 <==>
      DirectErrors(data) == map[] && (NoContent(data) || !Storable(data, {"receiver_id", "resource_id"}))
    ensures r.status != 201 ==> r.db == db
    ensures r.status == 201 ==>
      && Truthy(data, "receiver_id")
      && |r.db.directs| == |db.directs| + 1 && r.db == db.(directs := r.db.directs)
      && r.db.directs[..|db.directs|] == db.directs
      && var m := r.db.directs[|db.directs|];
         && Bindable(ContentOf(data)) && m.content == TextColumn(ContentOf(data)) && m.content.Str?
         && m.senderId == uid && m.createdAt == now
         && m.receiverId == Column(data["receiver_id"]) && m.resourceId == Column(Lookup(data, "resource_id"))
         && !m.read && r.body == SentBody("Direct message sent", m.id)
    ensures Valid(db) ==> Valid(r.db)
  {
    var errors := DirectErrors(data);
    if errors != map[] then Response(400, ErrorsBody(errors), db)
    else if NoContent(data) || !Storable(data, {"receiver_id", "resource_id"}) then Response(500, NoJson, db)
    else
      assert "receiver_id" !in errors;
      var m := DirectRec(NextId(DirectIds(db)), TextColumn(ContentOf(data)), uid, Column(data["receiver_id"]),
                         Column(Lookup(data, "resource_id")), now, false);
      assert forall i :: 0 <= i < |db.directs| ==> db.directs[i].id == DirectIds(db)[i];
      UniqueAppend(db.directs, (x: DirectRec) => x.id, m);
      Response(201, SentBody("Direct message sent", m.id), db.(directs := db.directs + [m]))
  }

  /** A boolean group id is stored as 1, so the message joins group 1's list. */
  lemma BooleanGroupIdIsOne(db: Db, uid: int, now: int)
    ensures var r := SendMessage(db, map["content" := Js.Str("hi"), "group_id" := Js.Bool(true)], uid, now);
            && r.status == 201 && r.db.messages[|db.messages|].groupId == Js.Num(1)
            && r.db.messages[|db.messages|] in GroupThread(r.db, "1")
  {
    var data := map["content" := Js.Str("hi"), "group_id" := Js.Bool(true)];
    assert ContentOf(data) == Js.Str("hi") && Truthy(data, "content");
    assert Lookup(data, "group_id") == Js.Bool(true) && Lookup(data, "resource_id") == Js.Undefined;
    assert Storable(data, {"group_id", "resource_id"});
    Strings.IntTextRoundTrip(1);
    assert Strings.IntText(1) == "1";
    assert Column(Js.Str("1")) == Js.Num(1);
    var r := SendMessage(db, data, uid, now);
    assert r.status == 201;
    var m := r.db.messages[|db.messages|];
    assert m in r.db.messages && m.groupId == Column(Js.Str("1"));
  }

  /** A list as group id cannot be bound, and the post fails with 500. */
  lemma ListGroupIdRefused(db: Db, uid: int, now: int)
    ensures SendMessage(db, map["content" := Js.Str("hi"), "group_id" := Js.Arr([])], uid, now).status == 500
  {
    var data := map["content" := Js.Str("hi"), "group_id" := Js.Arr([])];
    assert ContentOf(data) == Js.Str("hi") && Truthy(data, "content");
    assert !Bindable(Lookup(data, "group_id"));
  }

  /** The messages of one group, oldest first. */
  function GroupThread(db: Db, group: string): (t: seq<MessageRec>)
    ensures Seqs.SortedBy(t, (m: MessageRec) => m.createdAt)
    ensures forall m :: m in t <==> m in db.messages && m.groupId == Column(Js.Str(group))
    ensures multiset(t) == multiset(Seqs.Filter(db.messages, (m: MessageRec) => m.groupId == Column(Js.Str(group))))
  {
    var p := (m: MessageRec) => m.groupId == Column(Js.Str(group));
    var t := Seqs.SortBy(Seqs.Filter(db.messages, p), (m: MessageRec) => m.createdAt);
    forall m ensures m in t <==> m in db.messages && p(m) {
      Seqs.FilterMembership(db.messages, p, m);
      assert m in t <==> m in multiset(t);
    }
    t
  }

  const MessageKeys := {"id", "content", "sender", "resource_id", "resource_title", "created_at"}

  lemma MessageKeysOmitSenderId()
    ensures "user_id" !in MessageKeys && "uploader" !in MessageKeys && "sender" in MessageKeys && "id" in MessageKeys
  {
    assert "user_id"[0] != "content"[0];
  }

  /** The title of the resource a message references, or null. */
  function ResourceTitle(db: Db, resourceId: Js.Value): Js.Value {
    if !resourceId.Num? then Js.Null
    else match FindResource(db.resources, resourceId.n)
      case None => Js.Null
      case Some(k) => Js.Str(db.resources[k].title)
  }

  function MessageJson(db: Db, m: MessageRec, sender: UserRec): (j: Js.Value)
    ensures j.Obj? && j.fields.Keys == MessageKeys
  {
    Js.Obj(map["id" := Js.Num(m.id), "content" := m.content, "sender" := Js.Str(sender.username),
               "resource_id" := m.resourceId, "resource_title" := ResourceTitle(db, m.resourceId),
               "created_at" := Js.Num(m.createdAt)])
  }

  /** The JSON list of a thread; None when a sender is missing (reading its name fails). */
  function ThreadJson(db: Db, t: seq<MessageRec>): (r: Option<seq<Js.Value>>)
    ensures r.None? <==> exists i :: 0 <= i < |t| && FindUser(db, t[i].userId).None?
    ensures r.Some? ==> |r.value| == |t|
    ensures r.Some? ==> forall i :: 0 <= i < |t| ==>
      && r.value[i].Obj? && r.value[i].fields.Keys == MessageKeys
      && r.value[i].fields["id"] == Js.Num(t[i].id) && r.value[i].fields["content"] == t[i].content
      && r.value[i].fields["resource_id"] == t[i].resourceId
  {
    if t == [] then Some([])
    else match FindUser(db, t[0].userId)
      case None => None
      case Some(u) =>
        match ThreadJson(db, t[1..])
        case None => None
        case Some(rest) => Some([MessageJson(db, t[0], u)] + rest)
  }

  /**
   * `get_messages`: 400 without a group id; otherwise the group's messages
   * oldest first, each with its sender's name but never its sender's id.
   */
  function GetMessages(db: Db, group: Option<string>): (r: Response)
    ensures r.db == db
    ensures r.status in {200, 400, 500}
    ensures r.status == 400 <==> group.None? || group.value == ""
    ensures r.status == 500 <==>
      && group.Some? && group.value != ""
      && exists i :: 0 <= i < |db.messages| && db.messages[i].groupId == Column(Js.Str(group.value))
                     && FindUser(db, db.messages[i].userId).None?
    ensures r.status == 200 ==>
      && r.body.Arr? && |r.body.items| == |GroupThread(db, group.value)|
      && forall i :: 0 <= i < |r.body.items| ==>
           && r.body.items[i].Obj? && "user_id" !in r.body.items[i].fields && "uploader" !in r.body.items[i].fields
           && "sender" in r.body.items[i].fields
           && "id" in r.body.items[i].fields
           && r.body.items[i].fields["id"] == Js.Num(GroupThread(db, group.value)[i].id)
           && "resource_id" in r.body.items[i].fields
           && r.body.items[i].fields["resource_id"] == GroupThread(db, group.value)[i].resourceId
  {
    if group.None? || group.value == "" then Response(400, Error("Group ID is required"), db)
    else
      var t := GroupThread(db, group.value);
      OrphanInThread(db, group.value);
      match ThreadJson(db, t)
      case None => Response(500, NoJson, db)
      case Some(items) =>
        MessageKeysOmitSenderId();
        Response(200, Js.Arr(items), db)
  }

  /** A thread holds a message whose author is gone iff the group has one. */
  lemma OrphanInThread(db: Db, group: string)
    ensures (exists i :: 0 <= i < |GroupThread(db, group)| && FindUser(db, GroupThread(db, group)[i].userId).None?)
        <==> (exists i :: 0 <= i < |db.messages| && db.messages[i].groupId == Column(Js.Str(group))
                          && FindUser(db, db.messages[i].userId).None?)
  {
    var t := GroupThread(db, group);
    var g := Column(Js.Str(group));
    var p := (m: MessageRec) => m.groupId == g;
    var q := (m: MessageRec) => FindUser(db, m.userId).None?;
    assert forall m :: m in t <==> m in db.messages && p(m);
    Seqs.SameMembersWitness(t, db.messages, p, q);
  }

  /** The message goes from one of the two ids to the other, compared as SQLite compares them. */
  predicate Between(m: DirectRec, a: Js.Value, b: Js.Value) {
    (Js.Num(m.senderId) == a && m.receiverId == b) || (Js.Num(m.senderId) == b && m.receiverId == a)
  }

  /** The conversation between two ids, in both directions, oldest first. */
  function Conversation(db: Db, a: string, b: string): (t: seq<DirectRec>)
    ensures Seqs.SortedBy(t, (m: DirectRec) => m.createdAt)
    ensures forall m :: m in t <==> m in db.directs && Between(m, Column(Js.Str(a)), Column(Js.Str(b)))
    ensures multiset(t) == multiset(Seqs.Filter(db.directs, (m: DirectRec) => Between(m, Column(Js.Str(a)), Column(Js.Str(b)))))
  {
    var p := (m: DirectRec) => Between(m, Column(Js.Str(a)), Column(Js.Str(b)));
    var t := Seqs.SortBy(Seqs.Filter(db.directs, p), (m: DirectRec) => m.createdAt);
    forall m ensures m in t <==> m in db.directs && p(m) {
      Seqs.FilterMembership(db.directs, p, m);
      assert m in t <==> m in multiset(t);
    }
    t
  }

  /** Swapping the two ids gives the same conversation. */
  lemma ConversationSymmetric(db: Db, a: string, b: string)
    ensures Conversation(db, a, b) == Conversation(db, b, a)
  {
    var p := (m: DirectRec) => Between(m, Column(Js.Str(a)), Column(Js.Str(b)));
    var q := (m: DirectRec) => Between(m, Column(Js.Str(b)), Column(Js.Str(a)));
    Seqs.FilterExt(db.directs, p, q);
  }

  /** The user a stored receiver id refers to, if any. */
  function Receiver(db: Db, receiverId: Js.Value): Option<UserRec> {
    if receiverId.Num? then FindUser(db, receiverId.n) else None
  }

  function DirectJson(m: DirectRec, sender: UserRec, receiver: UserRec): (j: Js.Value)
    ensures j.Obj? && "id" in j.fields && "sender_id" in j.fields
    ensures j.fields["id"] == Js.Num(m.id) && j.fields["sender_id"] == Js.Num(m.senderId)
  {
    Js.Obj(map["id" := Js.Num(m.id), "content" := m.content,
               "sender_id" := Js.Num(m.senderId), "sender_username" := Js.Str(sender.username),
               "receiver_id" := m.receiverId, "receiver_username" := Js.Str(receiver.username),
               "resource_id" := m.resourceId, "created_at" := Js.Num(m.createdAt), "read" := Js.Bool(m.read)])
  }

  /** Both users a direct message names exist, so its sender and receiver names can be read. */
  predicate Serialisable(db: Db, m: DirectRec) {
    FindUser(db, m.senderId).Some? && Receiver(db, m.receiverId).Some?
  }

  /** The JSON list of a conversation; None when a sender or receiver is missing. */
  function ConversationJson(db: Db, t: seq<DirectRec>): (r: Option<seq<Js.Value>>)
    ensures r.None? <==> exists i :: 0 <= i < |t| && !Serialisable(db, t[i])
    ensures r.Some? ==> |r.value| == |t|
    ensures r.Some? ==> forall i :: 0 <= i < |t| ==>
      && r.value[i].Obj? && "id" in r.value[i].fields && "sender_id" in r.value[i].fields
      && r.value[i].fields["id"] == Js.Num(t[i].id) && r.value[i].fields["sender_id"] == Js.Num(t[i].senderId)
  {
    if t == [] then Some([])
    else if !Serialisable(db, t[0]) then None
    else
      var rest := ConversationJson(db, t[1..]);
      assert forall i :: 1 <= i < |t| ==> t[i] == t[1..][i - 1];
      if rest.None? then None
      else
        var head := DirectJson(t[0], FindUser(db, t[0].senderId).value, Receiver(db, t[0].receiverId).value);
        Some([head] + rest.value)
  }

  /** Some stored message between users `a` and `b` names a user that does not exist. */
  predicate OrphanBetween(db: Db, a: string, b: string) {
    exists i :: 0 <= i < |db.directs| && Between(db.directs[i], Column(Js.Str(a)), Column(Js.Str(b)))
                && !Serialisable(db, db.directs[i])
  }

  /** A conversation holds a message naming a missing user iff the pair has one. */
  lemma OrphanInConversation(db: Db, a: string, b: string)
    ensures (exists i :: 0 <= i < |Conversation(db, a, b)| && !Serialisable(db, Conversation(db, a, b)[i]))
        <==> OrphanBetween(db, a, b)
  {
    var t := Conversation(db, a, b);
    var x, y := Column(Js.Str(a)), Column(Js.Str(b));
    var p := (m: DirectRec) => Between(m, x, y);
    var q := (m: DirectRec) => !Serialisable(db, m);
    assert forall m :: m in t <==> m in db.directs && p(m);
    Seqs.SameMembersWitness(t, db.directs, p, q);
  }

  /**
   * `get_direct_messages`: 400 unless both ids are given; otherwise the
   * messages between the two users in either direction, oldest first.
   */
  function GetDirect(db: Db, sender: Option<string>, receiver: Option<string>): (r: Response)
    ensures r.db == db
    ensures r.status in {200, 400, 500}
    ensures r.status == 400 <==> sender.None? || sender.value == "" || receiver.None? || receiver.value == ""
    ensures r.status == 400 ==> r.body == Error("Both sender and receiver IDs are required")
    ensures r.status == 500 <==>
      && sender.Some? && sender.value != "" && receiver.Some? && receiver.value != ""
      && OrphanBetween(db, sender.value, receiver.value)
    ensures r.status == 200 ==>
      && r.body.Arr? && |r.body.items| == |Conversation(db, sender.value, receiver.value)|
      && forall i :: 0 <= i < |r.body.items| ==>
           r.body.items[i].Obj? && "id" in r.body.items[i].fields
           && r.body.items[i].fields["id"] == Js.Num(Conversation(db, sender.value, receiver.value)[i].id)
  {
    if sender.None? || sender.value == "" || receiver.None? || receiver.value == "" then
      Response(400, Error("Both sender and receiver IDs are required"), db)
    else
      OrphanInConversation(db, sender.value, receiver.value);
      match ConversationJson(db, Conversation(db, sender.value, receiver.value))
      case None => Response(500, NoJson, db)
      case Some(items) => Response(200, Js.Arr(items), db)
  }

  /** Asking for the conversation the other way round gives the same response. */
  lemma GetDirectSymmetric(db: Db, a: string, b: string)
    ensures GetDirect(db, Some(a), Some(b)) == GetDirect(db, Some(b), Some(a))
  {
    ConversationSymmetric(db, a, b);
  }
}

=== FILE: backend_resources.dfy ===
/**
 * The server's resource handlers (backend/app.py): the extension allow-list,
 * upload with content-hash de-duplication, the download counter, and the
 * owner-only update and delete. `secure_filename` and the SHA-256 of the
 * saved file are the parameters `safe` and `hash`.
 */
module ResourceApi {
  import opened Wrappers
  import Js
  import Strings
  import opened Http
  import opened Store

  const AllowedExtensions: set<string> := {"pdf", "docx", "pptx", "txt", "jpg", "png"}

  /** The lowered text after the last dot, given there is a dot. */
  function Suffix(name: string): string {
    Strings.Lower(Strings.AfterLast(name, '.'))
  }

  /**
   * `allowed_file`: there is a dot, and the lowered text after the last one
   * is an allowed extension.
   */
  function AllowedFile(name: string): (r: bool)
    ensures r <==> exists k :: LastDot(name, k) && Strings.Lower(name[k + 1..]) in AllowedExtensions
  {
    SuffixFollowsLastDot(name);
    '.' in name && Suffix(name) in AllowedExtensions
  }

  /** Position `k` holds the last dot of `name`. */
  predicate LastDot(name: string, k: int) {
    0 <= k < |name| && name[k] == '.' && '.' !in name[k + 1..]
  }

  /** When there is a dot, `Suffix` is the lowered text after the one last dot. */
  lemma SuffixFollowsLastDot(name: string)
    ensures '.' in name <==> exists k :: LastDot(name, k)
    ensures forall k :: LastDot(name, k) ==> Suffix(name) == Strings.Lower(name[k + 1..])
  {
    if '.' in name {
      var k := |name| - |Strings.AfterLast(name, '.')| - 1;
      assert name[k + 1..] == Strings.AfterLast(name, '.');
      assert LastDot(name, k);
      LastDotUnique(name, k);
    } else {
      forall k | 0 <= k < |name| ensures name[k] != '.' {
        assert name[k] in name;
      }
    }
  }

  /** Only one dot has no dot after it. */
  lemma LastDotUnique(name: string, k: nat)
    requires LastDot(name, k)
    ensures forall j :: LastDot(name, j) ==> j == k
  {
  }

  const ResourceExists := "Resource already exists"

  /** `Resource.query.filter_by(file_hash=...).first()` */
  function ByHash(rs: seq<ResourceRec>, h: string): (r: Option<ResourceRec>)
    ensures r.Some? ==> r.value in rs && r.value.fileHash == h
    ensures r.None? <==> forall i :: 0 <= i < |rs| ==> rs[i].fileHash != h
  {
    if rs == [] then None
    else if rs[0].fileHash == h then Some(rs[0])
    else ByHash(rs[1..], h)
  }

  /** `request.form.get(k, fallback)` */
  function FormOr(form: map<string, string>, k: string, fallback: string): string {
    if k in form then form[k] else fallback
  }

  /** The record a new upload stores: defaults fill the form fields the client left out. */
  function NewResource(db: Db, file: File, form: map<string, string>, uid: int,
                       safe: string -> string, hash: seq<bv8> -> string): ResourceRec {
    var name := safe(file.name);
    ResourceRec(NextId(ResourceIds(db)), FormOr(form, "title", name), Some(FormOr(form, "description", "")),
                FormOr(form, "category", "General"), name, |file.content|, hash(file.content), 0, uid)
  }

  /**
   * `upload_resource`: 400 for a missing file, an empty name or a type not
   * allowed; 409 naming the stored resource when the content is already
   * there; otherwise 201 after inserting one resource owned by `uid`.
   */
  function Upload(db: Db, file: Option<File>, form: map<string, string>, uid: int,
                  safe: string -> string, hash: seq<bv8> -> string): (r: Response)
    ensures r.status in {201, 400, 409}
    ensures r.status == 400 <==> file.None? || file.value.name == "" || !AllowedFile(file.value.name)
    ensures r.status == 409 <==>
      && file.Some? && file.value.name != "" && AllowedFile(file.value.name)
      && exists i :: 0 <= i < |db.resources| && db.resources[i].fileHash == hash(file.value.content)
    ensures r.status == 409 ==>
      exists i :: 0 <= i < |db.resources| && db.resources[i].fileHash == hash(file.value.content)
                  && r.body == Js.Obj(map["message" := Js.Str(ResourceExists),
                                          "resource" := Js.Obj(map["id" := Js.Num(db.resources[i].id),
                                                                   "title" := Js.Str(db.resources[i].title)])])
    ensures r.status != 201 ==> r.db == db
    ensures r.status == 201 ==>
      && r.db == db.(resources := db.resources + [NewResource(db, file.value, form, uid, safe, hash)])
      && NewResource(db, file.value, form, uid, safe, hash).owner == uid
      && NewResource(db, file.value, form, uid, safe, hash).downloads == 0
      && NewResource(db, file.value, form, uid, safe, hash).title
         == (if "title" in form then form["title"] else safe(file.value.name))
      && NewResource(db, file.value, form, uid, safe, hash).description
         == Some(if "description" in form then form["description"] else "")
      && NewResource(db, file.value, form, uid, safe, hash).category
         == (if "category" in form then form["category"] else "General")
    ensures Valid(db) ==> Valid(r.db)
  {
    match file
    case None => Response(400, Error("No file part"), db)
    case Some(f) =>
      if f.name == "" then Response(400, Error("No selected file"), db)
      else if !AllowedFile(f.name) then Response(400, Error("File type not allowed"), db)
      else
        match ByHash(db.resources, hash(f.content))
        case Some(existing) =>
          Response(409, Js.Obj(map["message" := Js.Str(ResourceExists),
                                   "resource" := Js.Obj(map["id" := Js.Num(existing.id),
                                                            "title" := Js.Str(existing.title)])]), db)
        case None =>
          var res := NewResource(db, f, form, uid, safe, hash);
          InsertKeepsValid(db, res);
          Response(201, Js.Obj(map["message" := Js.Str("Resource uploaded successfully"),
                                   "resource" := Js.Obj(map["id" := Js.Num(res.id), "title" := Js.Str(res.title),
                                                            "file_name" := Js.Str(res.fileName)])]),
                   db.(resources := db.resources + [res]))
  }

  lemma InsertKeepsValid(db: Db, res: ResourceRec)
    requires res.id == NextId(ResourceIds(db))
    requires forall i :: 0 <= i < |db.resources| ==> db.resources[i].fileHash != res.fileHash
    ensures Valid(db) ==> Valid(db.(resources := db.resources + [res]))
  {
    if Valid(db) {
      assert forall i :: 0 <= i < |db.resources| ==> db.resources[i].id == ResourceIds(db)[i];
      UniqueAppend(db.resources, (x: ResourceRec) => x.id, res);
      UniqueAppend(db.resources, (x: ResourceRec) => x.fileHash, res);
    }
  }

  /** Uploading the same bytes twice stores them once: the second upload is a 409 that writes nothing. */
  lemma SameContentStoredOnce(db: Db, file: File, form: map<string, string>, form2: map<string, string>,
                              uid: int, uid2: int, safe: string -> string, hash: seq<bv8> -> string)
    requires Upload(db, Some(file), form, uid, safe, hash).status == 201
    ensures var db' := Upload(db, Some(file), form, uid, safe, hash).db;
            Upload(db', Some(file), form2, uid2, safe, hash).status == 409
            && Upload(db', Some(file), form2, uid2, safe, hash).db == db'
  {
    var db' := Upload(db, Some(file), form, uid, safe, hash).db;
    assert db'.resources[|db.resources|].fileHash == hash(file.content);
  }

  /** The JSON of a resource with its uploader's name. */
  function ResourceJson(res: ResourceRec, uploader: UserRec): Js.Value {
    Js.Obj(map["id" := Js.Num(res.id), "title" := Js.Str(res.title),
               "description" := (if res.description.Some? then Js.Str(res.description.value) else Js.Null),
               "category" := Js.Str(res.category), "file_name" := Js.Str(res.fileName),
               "file_size" := Js.Num(res.fileSize), "download_count" := Js.Num(res.downloads),
               "uploader_id" := Js.Num(res.owner), "uploader" := Js.Str(uploader.username)])
  }

  /**
   * `get_resource`: 404 for an unknown id; otherwise the download count goes
   * up by one and is committed before the reply is built, so a resource whose
   * uploader is gone answers 500 with the count already raised.
   */
  function GetResource(db: Db, id: int): (r: Response)
    ensures r.status in {200, 404, 500}
    ensures r.status == 404 <==> forall i :: 0 <= i < |db.resources| ==> db.resources[i].id != id
    ensures r.status == 404 ==> r.db == db
    ensures r.status == 500 <==>
      FindResource(db.resources, id).Some? && FindUser(db, db.resources[FindResource(db.resources, id).value].owner).None?
    ensures r.status != 404 ==>
      exists k :: 0 <= k < |db.resources| && db.resources[k].id == id
                  && r.db == db.(resources := db.resources[k := db.resources[k].(downloads := db.resources[k].downloads + 1)])
    ensures r.status == 200 ==> r.body.Obj? && "id" in r.body.fields && r.body.fields["id"] == Js.Num(id)
    ensures Valid(db) ==> Valid(r.db)
  {
    match FindResource(db.resources, id)
    case None => Response(404, NoJson, db)
    case Some(k) =>
      var res := db.resources[k].(downloads := db.resources[k].downloads + 1);
      CountKeepsValid(db, k);
      var db' := db.(resources := db.resources[k := res]);
      match FindUser(db, res.owner)
      case None => Response(500, NoJson, db')
      case Some(u) => Response(200, ResourceJson(res, u), db')
  }

  /** Raising a download count touches no unique column. */
  lemma CountKeepsValid(db: Db, k: nat)
    requires k < |db.resources|
    ensures var res := db.resources[k].(downloads := db.resources[k].downloads + 1);
            Valid(db) ==> Valid(db.(resources := db.resources[k := res]))
  {
    var res := db.resources[k].(downloads := db.resources[k].downloads + 1);
    UniqueUpdate(db.resources, k, res, (x: ResourceRec) => x.id);
    UniqueUpdate(db.resources, k, res, (x: ResourceRec) => x.fileHash);
  }

  /** The two verbs of `update_or_delete_resource`; a PATCH carries its JSON fields. */
  datatype Change = Patch(data: map<string, string>) | Delete

  /** PATCH semantics: each field present in the body replaces the stored one; the rest stay. */
  function Patched(res: ResourceRec, data: map<string, string>): (p: ResourceRec)
    ensures p.id == res.id && p.fileName == res.fileName && p.fileSize == res.fileSize
    ensures p.fileHash == res.fileHash && p.downloads == res.downloads && p.owner == res.owner
    ensures p.title == (if "title" in data then data["title"] else res.title)
    ensures p.description == (if "description" in data then Some(data["description"]) else res.description)
    ensures p.category == (if "category" in data then data["category"] else res.category)
  {
    res.(title := if "title" in data then data["title"] else res.title,
         description := if "description" in data then Some(data["description"]) else res.description,
         category := if "category" in data then data["category"] else res.category)
  }

  /**
   * `update_or_delete_resource`: 404 for an unknown id, 403 for anyone but
   * the uploader, 400 for a PATCH title under three characters, all without
   * a write; otherwise the PATCH or the DELETE of that one record.
   */
  function UpdateOrDelete(db: Db, id: int, uid: int, change: Change): (r: Response)
    ensures r.status in {200, 400, 403, 404}
    ensures r.status == 404 <==> forall i :: 0 <= i < |db.resources| ==> db.resources[i].id != id
    ensures r.status != 200 ==> r.db == db
    ensures r.status == 403 ==> r.body == Error("Unauthorized")
    ensures r.status == 403 ==>
      exists k :: 0 <= k < |db.resources| && db.resources[k].id == id && db.resources[k].owner != uid
    ensures r.status == 200 || r.status == 400 ==>
      exists k :: 0 <= k < |db.resources| && db.resources[k].id == id && db.resources[k].owner == uid
    ensures r.status == 400 <==>
      && change.Patch? && "title" in change.data && |change.data["title"]| < 3
      && exists k :: 0 <= k < |db.resources| && db.resources[k].id == id && db.resources[k].owner == uid
                     && (forall j :: 0 <= j < k ==> db.resources[j].id != id)
    ensures r.status == 200 ==>
      exists k :: 0 <= k < |db.resources| && db.resources[k].id == id
                  && r.db == if change.Delete? then Deleted(db, k, id)
                             else db.(resources := db.resources[k := Patched(db.resources[k], change.data)])
    ensures Valid(db) ==> Valid(r.db)
  {
    match FindResource(db.resources, id)
    case None => Response(404, NoJson, db)
    case Some(k) =>
      var res := db.resources[k];
      FirstMatch(db.resources, id, k);
      if res.owner != uid then Response(403, Error("Unauthorized"), db)
      else
        match change
        case Patch(data) =>
          if "title" in data && |data["title"]| < 3 then Response(400, Error("Title must be at least 3 characters"), db)
          else
            var p := Patched(res, data);
            UniqueUpdate(db.resources, k, p, (x: ResourceRec) => x.id);
            UniqueUpdate(db.resources, k, p, (x: ResourceRec) => x.fileHash);
            Response(200, Js.Obj(map["message" := Js.Str("Resource updated"),
                                     "resource" := Js.Obj(map["id" := Js.Num(p.id), "title" := Js.Str(p.title)])]),
                     db.(resources := db.resources[k := p]))
        case Delete =>
          Response(200, Js.Obj(map["message" := Js.Str("Resource deleted")]), Deleted(db, k, id))
  }

  /**
   * What deleting resource `id` does to the group messages. `Resource.messages`
   * has no delete cascade, so the ORM sets `resource_id` to NULL on every
   * message that names the resource; nothing else about any message changes.
   */
  function DetachMessages(ms: seq<MessageRec>, id: int): (r: seq<MessageRec>)
    ensures |r| == |ms|
    ensures forall i :: 0 <= i < |r| ==> r[i].resourceId != Js.Num(id)
    ensures forall i :: 0 <= i < |r| ==> r[i] == ms[i].(resourceId := r[i].resourceId)
    ensures forall i :: 0 <= i < |r| ==> ms[i].resourceId == Js.Num(id) ==> r[i].resourceId == Js.Null
    ensures forall i :: 0 <= i < |r| ==> ms[i].resourceId != Js.Num(id) ==> r[i] == ms[i]
  {
    seq(|ms|, i requires 0 <= i < |ms| =>
      if ms[i].resourceId == Js.Num(id) then ms[i].(resourceId := Js.Null) else ms[i])
  }

  /** The same for direct messages, through `Resource.direct_messages`. */
  function DetachDirects(ds: seq<DirectRec>, id: int): (r: seq<DirectRec>)
    ensures |r| == |ds|
    ensures forall i :: 0 <= i < |r| ==> r[i].resourceId != Js.Num(id)
    ensures forall i :: 0 <= i < |r| ==> r[i] == ds[i].(resourceId := r[i].resourceId)
    ensures forall i :: 0 <= i < |r| ==> ds[i].resourceId == Js.Num(id) ==> r[i].resourceId == Js.Null
    ensures forall i :: 0 <= i < |r| ==> ds[i].resourceId != Js.Num(id) ==> r[i] == ds[i]
  {
    seq(|ds|, i requires 0 <= i < |ds| =>
      if ds[i].resourceId == Js.Num(id) then ds[i].(resourceId := Js.Null) else ds[i])
  }

  /** The database after the record at `k`, whose id is `id`, is deleted. */
  function Deleted(db: Db, k: nat, id: int): (d: Db)
    requires k < |db.resources|
    ensures Valid(db) ==> Valid(d)
  {
    var ms := DetachMessages(db.messages, id);
    var ds := DetachDirects(db.directs, id);
    UniqueRemove(db.resources, k, (x: ResourceRec) => x.id);
    UniqueRemove(db.resources, k, (x: ResourceRec) => x.fileHash);
    UniqueSameKeys(db.messages, ms, (m: MessageRec) => m.id);
    UniqueSameKeys(db.directs, ds, (m: DirectRec) => m.id);
    db.(resources := db.resources[..k] + db.resources[k + 1..], messages := ms, directs := ds)
  }

  /** After a successful DELETE no group or direct message names the deleted id. */
  lemma DeleteDetachesEveryMessage(db: Db, id: int, uid: int)
    requires UpdateOrDelete(db, id, uid, Delete).status == 200
    ensures var d := UpdateOrDelete(db, id, uid, Delete).db;
            && (forall i :: 0 <= i < |d.messages| ==> d.messages[i].resourceId != Js.Num(id))
            && (forall i :: 0 <= i < |d.directs| ==> d.directs[i].resourceId != Js.Num(id))
  {
    var d := UpdateOrDelete(db, id, uid, Delete).db;
    var k :| 0 <= k < |db.resources| && db.resources[k].id == id && d == Deleted(db, k, id);
  }

  /** With ids unique, looking up a record's id finds that record. */
  lemma FoundAtItsIndex(rs: seq<ResourceRec>, k: nat)
    requires UniqueBy(rs, (x: ResourceRec) => x.id) && k < |rs|
    ensures FindResource(rs, rs[k].id) == Some(k)
  {
    var key := (x: ResourceRec) => x.id;
    var j := FindResource(rs, rs[k].id).value;
    assert key(rs[j]) == key(rs[k]);
  }

  /** The position `FindResource` returns is the first with that id. */
  lemma FirstMatch(rs: seq<ResourceRec>, id: int, k: nat)
    requires FindResource(rs, id) == Some(k)
    ensures forall j :: 0 <= j < k ==> rs[j].id != id
    decreases |rs|
  {
    if rs != [] && rs[0].id != id {
      FirstMatch(rs[1..], id, k - 1);
    }
  }

  /** With ids unique, a successful DELETE removes exactly the records with that id and keeps the rest in order. */
  lemma DeleteRemovesExactlyThatId(db: Db, id: int, uid: int)
    requires Valid(db)
    requires UpdateOrDelete(db, id, uid, Delete).status == 200
    ensures forall x :: x in UpdateOrDelete(db, id, uid, Delete).db.resources <==> x in db.resources && x.id != id
    ensures |UpdateOrDelete(db, id, uid, Delete).db.resources| == |db.resources| - 1
  {
    var r := UpdateOrDelete(db, id, uid, Delete);
    var k :| 0 <= k < |db.resources| && db.resources[k].id == id
             && r.db == Deleted(db, k, id);
    assert forall j :: 0 <= j < |db.resources| && j != k ==> db.resources[j].id != id by {
      forall j | 0 <= j < |db.resources| && j != k
        ensures db.resources[j].id != id
      {
        var key := (x: ResourceRec) => x.id;
        if j < k { assert key(db.resources[j]) != key(db.resources[k]); }
        else { assert key(db.resources[k]) != key(db.resources[j]); }
      }
    }
    forall x ensures x in r.db.resources <==> x in db.resources && x.id != id {
      RemoveAtMembership(db.resources, k, x);
    }
  }

  /** Cutting out position `k` keeps exactly the records whose id differs from that record's, when no other shares it. */
  lemma RemoveAtMembership(rs: seq<ResourceRec>, k: nat, x: ResourceRec)
    requires k < |rs|
    requires forall j :: 0 <= j < |rs| && j != k ==> rs[j].id != rs[k].id
    ensures x in rs[..k] + rs[k + 1..] <==> x in rs && x.id != rs[k].id
  {
    var t := rs[..k] + rs[k + 1..];
    if x in rs && x.id != rs[k].id {
      var j :| 0 <= j < |rs| && rs[j] == x;
      if j < k { assert t[j] == x; } else { assert t[j - 1] == x; }
    }
    if x in t {
      var j :| 0 <= j < |t| && t[j] == x;
      var j' := if j < k then j else j + 1;
      assert rs[j'] == x && j' != k;
    }
  }

  /** Nobody but the uploader can change or remove a resource. */
  lemma OnlyOwnerWrites(db: Db, id: int, uid: int, change: Change)
    requires UpdateOrDelete(db, id, uid, change).db != db
    ensures exists k :: 0 <= k < |db.resources| && db.resources[k].id == id && db.resources[k].owner == uid
  {
  }
}

=== FILE: direct_messages.dfy ===
/**
 * Direct messaging (frontend/src/pages/DirectMessage.jsx): the peer list,
 * the conversation with the selected peer, and sending to that peer. The
 * page sits behind the route gate, so a current user `me` always exists.
 */
module DirectMessages {
  import opened Wrappers
  import Js
  import opened Http
  import Strings
  import Seqs
  import Session

  type User = Session.User

  datatype Dm = Dm(users: seq<User>, selected: Option<User>, messages: seq<Js.Value>, text: string, loading: bool)

  datatype Step = Step(dm: Dm, requests: seq<Request>)

  const UsersPath := "/api/users"
  const DirectPath := "/api/direct-messages"

  function Initial(): Dm {
    Dm([], None, [], "", true)
  }

  function NotMe(me: User): User -> bool {
    (u: User) => u.id != me.id
  }

  /**
   * `fetchData`: every listed user except `me`, in server order; the first
   * of them becomes the selected peer when there is one. Loading ends on
   * both outcomes, and a failure leaves the list alone.
   */
  function LoadUsers(d: Dm, me: User, list: Outcome<seq<User>>): (r: Step)
    ensures r.requests == [Fetch(UsersPath)]
    ensures list.Ok? ==>
      && Seqs.IsSubsequence(r.dm.users, list.body)
      && (forall u :: u in r.dm.users <==> u in list.body && u.id != me.id)
      && (forall u :: multiset(r.dm.users)[u] == if u.id != me.id then multiset(list.body)[u] else 0)
      && (r.dm.users != [] ==> r.dm.selected == Some(r.dm.users[0]))
      && (r.dm.users == [] ==> r.dm.selected == d.selected)
    ensures list.Err? ==> r.dm.users == d.users && r.dm.selected == d.selected
    ensures r.dm.messages == d.messages && r.dm.text == d.text && !r.dm.loading
  {
    match list
    case Err(_) => Step(d.(loading := false), [Fetch(UsersPath)])
    case Ok(all) =>
      var peers := Seqs.Filter(all, NotMe(me));
      forall u ensures u in peers <==> u in all && u.id != me.id {
        Seqs.FilterMembership(all, NotMe(me), u);
      }
      var selected := if |peers| > 0 then Some(peers[0]) else d.selected;
      Step(d.(users := peers, selected := selected, loading := false), [Fetch(UsersPath)])
  }

  /** Clicking a peer in the list. */
  function Select(d: Dm, peer: User): Dm {
    d.(selected := Some(peer))
  }

  /**
   * Picking a peer starts the effect that fetches the conversation with that
   * peer; its reply becomes the thread and the peer stays selected.
   */
  lemma SelectedPeerIsFetched(d: Dm, peer: User, me: User, list: Outcome<seq<Js.Value>>)
    ensures FetchConversation(Select(d, peer), me, list).requests == [ConversationRequest(me, peer)]
    ensures FetchConversation(Select(d, peer), me, list).dm.selected == Some(peer)
    ensures list.Ok? ==> FetchConversation(Select(d, peer), me, list).dm.messages == list.body
  {
  }

  function ConversationRequest(me: User, peer: User): Request {
    Request(GET, DirectPath, map["sender_id" := Js.Num(me.id), "receiver_id" := Js.Num(peer.id)], NoBody)
  }

  /**
   * `fetchMessages`, run whenever the selected peer changes: nothing without
   * a peer; otherwise ask for the conversation between `me` and the peer and
   * replace the list on success.
   */
  function FetchConversation(d: Dm, me: User, list: Outcome<seq<Js.Value>>): (r: Step)
    ensures d.selected.None? ==> r == Step(d, [])
    ensures d.selected.Some? ==> r.requests == [ConversationRequest(me, d.selected.value)]
    ensures d.selected.Some? && list.Ok? ==> r.dm == d.(messages := list.body)
    ensures list.Err? ==> r.dm == d
  {
    match d.selected
    case None => Step(d, [])
    case Some(peer) =>
      var next := if list.Ok? then d.(messages := list.body) else d;
      Step(next, [ConversationRequest(me, peer)])
  }

  predicate SendBlocked(d: Dm) {
    Strings.Trim(d.text) == "" || d.selected.None?
  }

  /** The post body: exactly the text as typed and the peer's id; never an attachment. */
  function SendBody(text: string, peer: User): Js.Value {
    Js.Obj(map["content" := Js.Str(text), "receiver_id" := Js.Num(peer.id)])
  }

  /**
   * `handleSendMessage`: nothing for blank text or without a peer; otherwise
   * one post, whose response body is appended with the text cleared on
   * success, and which changes nothing on failure.
   */
  function Send(d: Dm, post: Outcome<Js.Value>): (r: Step)
    ensures SendBlocked(d) ==> r == Step(d, [])
    ensures !SendBlocked(d) ==> r.requests == [PostJson(DirectPath, SendBody(d.text, d.selected.value))]
    ensures !SendBlocked(d) && post.Ok? ==> r.dm == d.(messages := d.messages + [post.body], text := "")
    ensures post.Err? ==> r.dm == d
    ensures forall q :: q in r.requests ==> q.payload.Json? && "resource_id" !in q.payload.value.fields
  {
    if SendBlocked(d) then Step(d, [])
    else
      var peer := d.selected.value;
      var req := PostJson(DirectPath, SendBody(d.text, peer));
      match post
      case Ok(body) => Step(d.(messages := d.messages + [body], text := ""), [req])
      case Err(_) => Step(d, [req])
  }

  /** The name shown over a message: mine when I sent it, the selected peer's otherwise. */
  function SenderName(message: Js.Value, me: User, peer: User): (name: string)
    ensures Js.Get(message, "sender_id") == Js.Num(me.id) ==> name == me.username
    ensures Js.Get(message, "sender_id") != Js.Num(me.id) ==> name == peer.username
  {
    if Js.StrictEq(Js.Get(message, "sender_id"), Js.Num(me.id)) then me.username else peer.username
  }

  /** What `MessageBubble` receives for a conversation message. */
  function BubbleInput(message: Js.Value, me: User, peer: User): Js.Value {
    Js.With(message, "sender_username", Js.Str(SenderName(message, me, peer)))
  }
}

=== FILE: edit_resource.dfy ===
/**
 * The edit page (frontend/src/pages/EditResource.jsx): prefill the form from
 * the resource, patch its text fields, and optionally upload a new file.
 */
module EditResource {
  import opened Wrappers
  import Js
  import opened Http
  import opened ResourceForm

  datatype Edit = Edit(resource: Option<Resource>, loading: bool, file: Option<File>, form: Fields)

  /** A handler's result: the page, the calls made in order, and where it navigated. */
  datatype Step = Step(page: Edit, requests: seq<Request>, navigateTo: Option<string>)

  const ResourcesPath := "/api/resources"

  function Initial(): Edit {
    Edit(None, true, None, Fields("", Some(""), ""))
  }

  function ResourcePath(id: string): string {
    ResourcesPath + "/" + id
  }

  /** `fetchResource`: prefill from the server's copy, or go home when the call fails. */
  function Load(e: Edit, id: string, got: Outcome<Resource>): (r: Step)
    ensures r.requests == [Fetch(ResourcePath(id))]
    ensures got.Ok? ==>
      && r.page.form == Fields(got.body.title, got.body.description, got.body.category)
      && r.page.resource == Some(got.body) && !r.page.loading && r.navigateTo.None?
    ensures got.Err? ==> r.page == e && r.navigateTo == Some("/")
  {
    match got
    case Ok(res) =>
      Step(e.(resource := Some(res), form := Fields(res.title, res.description, res.category), loading := false),
           [Fetch(ResourcePath(id))], None)
    case Err(_) => Step(e, [Fetch(ResourcePath(id))], Some("/"))
  }

  /** The field editors: each `onChange` replaces only its own field. */
  function Change(e: Edit, name: Field, value: string): (r: Edit)
    ensures Read(r.form, name) == Some(value)
    ensures forall other :: other != name ==> Read(r.form, other) == Read(e.form, other)
    ensures r.resource == e.resource && r.file == e.file
  {
    e.(form := Update(e.form, name, value))
  }

  /** The patch body: exactly title, description (possibly null) and category. */
  function PatchBody(f: Fields): Js.Value {
    Js.Obj(map["title" := Js.Str(f.title),
               "description" := (if f.description.Some? then Js.Str(f.description.value) else Js.Null),
               "category" := Js.Str(f.category)])
  }

  /**
   * `handleSubmit`: patch the resource; only when that succeeded and a file
   * is selected, post the file as a new resource; navigate home only when
   * every call made succeeded.
   */
  function Submit(e: Edit, id: string, patch: Outcome<Js.Value>, post: Outcome<Js.Value>): (r: Step)
    ensures |r.requests| >= 1 && r.requests[0] == Request(PATCH, ResourcePath(id), map[], Json(PatchBody(e.form)))
    ensures |r.requests| == 2 <==> patch.Ok? && e.file.Some?
    ensures |r.requests| == 2 ==> r.requests[1] == PostForm(ResourcesPath, e.file.value, MultipartFields(e.form))
    ensures |r.requests| <= 2
    ensures r.navigateTo.Some? <==> patch.Ok? && (e.file.None? || post.Ok?)
    ensures r.navigateTo.Some? ==> r.navigateTo == Some("/")
    ensures r.page == e
  {
    var patchReq := Request(PATCH, ResourcePath(id), map[], Json(PatchBody(e.form)));
    if patch.Err? then Step(e, [patchReq], None)
    else match e.file
      case None => Step(e, [patchReq], Some("/"))
      case Some(f) =>
        var postReq := PostForm(ResourcesPath, f, MultipartFields(e.form));
        Step(e, [patchReq, postReq], if post.Ok? then Some("/") else None)
  }

  /** A new file goes to the collection as a separate resource, never to the edited one. */
  lemma NewFileIsSeparateResource(e: Edit, id: string, patch: Outcome<Js.Value>, post: Outcome<Js.Value>)
    ensures forall q :: q in Submit(e, id, patch, post).requests && q.verb == POST ==>
      q.path == ResourcesPath && q.path != ResourcePath(id)
  {
  }
}

=== FILE: end_to_end.dfy ===
/**
 * Facts that hold only once the client pages and the server handlers are
 * put together: what the server's replies look like to the code that reads
 * them, and how the client's requests are read on the server.
 */
module EndToEnd {
  import opened Wrappers
  import Js
  import Strings
  import Http
  import Store
  import AuthApi
  import ResourceApi
  import GroupApi
  import MessageApi
  import Session
  import Transport
  import Routes
  import AuthPage
  import MessageBubble
  import GroupChat
  import DirectMessages
  import GroupPage
  import ResourceForm
  import ResourceCard
  import Library
  import UploadPage
  import EditResource

  /**
   * The text fields of a JSON body. The handlers that take text-only request
   * maps are given these; the rest of the body is not modelled.
   */
  function Texts(fields: map<string, Js.Value>): map<string, string> {
    map k | k in fields && fields[k].Str? :: fields[k].s
  }

  /** How a query parameter reaches the server: its decimal or literal text. */
  function ArgText(v: Js.Value): string
    requires v.Num? || v.Str?
  {
    if v.Num? then Strings.IntText(v.n) else v.s
  }

  /** A number sent as a query parameter is read back as the same integer. */
  lemma NumberArgRoundTrip(n: int)
    ensures Store.Column(Js.Str(ArgText(Js.Num(n)))) == Js.Num(n)
  {
    Strings.IntTextRoundTrip(n);
  }

  // ---- Group chat ---------------------------------------------------------

  /**
   * The group list never carries `user_id` or `uploader`, which is where the
   * chat page looks for the sender's id and name: a signed-in user sees every
   * message of the group as received, with no sender name; an anonymous one
   * sees every message as their own.
   */
  lemma GroupMessagesNeverLookSent(db: Store.Db, group: string, user: Option<Session.User>)
    requires group != ""
    requires forall i :: 0 <= i < |db.messages| && db.messages[i].groupId == Store.Column(Js.Str(group)) ==>
               Store.FindUser(db, db.messages[i].userId).Some?
    ensures MessageApi.GetMessages(db, Some(group)).status == 200
    ensures var items := MessageApi.GetMessages(db, Some(group)).body.items;
            forall i :: 0 <= i < |items| ==>
              && (GroupChat.BubbleFor(items[i], user).side == MessageBubble.Sent <==> user.None?)
              && GroupChat.BubbleFor(items[i], user).sender == Js.Undefined
  {
    var items := MessageApi.GetMessages(db, Some(group)).body.items;
    forall i | 0 <= i < |items|
      ensures GroupChat.BubbleFor(items[i], user).side == MessageBubble.Sent <==> user.None?
      ensures GroupChat.BubbleFor(items[i], user).sender == Js.Undefined
    {
      SenderlessBubble(items[i], user);
    }
  }

  /**
   * Opening a group whose messages all have their authors loads exactly the
   * server's thread: one item per message of the group, oldest first.
   */
  lemma LoadedChatHoldsTheThread(db: Store.Db, c: GroupChat.Chat, groupId: string, group: Http.Outcome<Js.Value>)
    requires group.Ok? && groupId != ""
    requires forall i :: 0 <= i < |db.messages| && db.messages[i].groupId == Store.Column(Js.Str(groupId)) ==>
               Store.FindUser(db, db.messages[i].userId).Some?
    ensures var r := MessageApi.GetMessages(db, Some(groupId));
            var t := MessageApi.GroupThread(db, groupId);
            && r.status == 200 && r.body.Arr?
            && var chat := GroupChat.Load(c, groupId, group, Http.Ok(r.body.items)).chat;
               && chat.group == group.body
               && |chat.messages| == |t|
               && forall i :: 0 <= i < |t| ==>
                    chat.messages[i].Obj? && "id" in chat.messages[i].fields
                    && chat.messages[i].fields["id"] == Js.Num(t[i].id)
  {
    var r := MessageApi.GetMessages(db, Some(groupId));
    assert r.status != 400 && r.status != 500;
  }

  /** An object with neither `user_id` nor `uploader` gives the chat page no sender. */
  lemma SenderlessBubble(m: Js.Value, user: Option<Session.User>)
    requires m.Obj? && "user_id" !in m.fields && "uploader" !in m.fields
    ensures GroupChat.BubbleFor(m, user).side == MessageBubble.Sent <==> user.None?
    ensures GroupChat.BubbleFor(m, user).sender == Js.Undefined
  {
    var input := GroupChat.BubbleInput(m);
    assert Js.Get(input, "sender_id") == Js.Undefined;
    assert Js.Get(input, "sender_username") == Js.Undefined;
  }

  /**
   * A non-empty message the chat page posts is stored in the group it was
   * posted to and shows up in that group's list, unless the attachment id is
   * a list or object the driver cannot bind; but what the page appends right
   * away is the server's acknowledgement, whose bubble has no content.
   */
  lemma PostedMessageAppendedAsAcknowledgement(db: Store.Db, c: GroupChat.Chat, group: string,
                                               attachment: Js.Value, uid: int, now: int,
                                               user: Option<Session.User>)
    requires c.text != ""
    ensures var r := MessageApi.SendMessage(db, GroupChat.MessageBody(c.text, group, attachment).fields, uid, now);
            && (r.status == 201 <==> Store.Bindable(attachment))
            && (r.status == 201 ==>
                  && r.db.messages[|db.messages|] in MessageApi.GroupThread(r.db, group)
                  && r.db.messages[|db.messages|].content == Js.Str(c.text)
                  && GroupChat.BubbleFor(r.body, user).content == Js.Undefined)
  {
    var data := GroupChat.MessageBody(c.text, group, attachment).fields;
    assert Store.Lookup(data, "content") == Js.Str(c.text) && MessageApi.Truthy(data, "content");
    assert MessageApi.ContentOf(data) == Js.Str(c.text);
    assert Store.Lookup(data, "group_id") == Js.Str(group);
    assert Store.Lookup(data, "resource_id") == attachment;
    assert MessageApi.Storable(data, {"group_id", "resource_id"}) <==> Store.Bindable(attachment);
    var r := MessageApi.SendMessage(db, data, uid, now);
    if r.status == 201 {
      var m := r.db.messages[|db.messages|];
      assert m in r.db.messages && m.groupId == Store.Column(Js.Str(group));
      AcknowledgementHasNoContent(r.body, user);
    }
  }

  /** A reply without a `content` field renders as a bubble without content. */
  lemma AcknowledgementHasNoContent(ack: Js.Value, user: Option<Session.User>)
    requires ack.Obj? && "content" !in ack.fields
    ensures GroupChat.BubbleFor(ack, user).content == Js.Undefined
  {
    var input := GroupChat.BubbleInput(ack);
    assert input.Obj? && "content" !in input.fields;
  }

  /**
   * A chat attachment whose bytes are already stored is refused by the
   * server (409), so the page posts no message and changes nothing.
   */
  lemma DuplicateAttachmentSendsNothing(db: Store.Db, c: GroupChat.Chat, group: string, uid: int,
                                        safe: string -> string, hash: seq<bv8> -> string,
                                        post: Http.Outcome<Js.Value>)
    requires c.file.Some? && c.file.value.name != "" && ResourceApi.AllowedFile(c.file.value.name)
    requires exists i :: 0 <= i < |db.resources| && db.resources[i].fileHash == hash(c.file.value.content)
    ensures var up := ResourceApi.Upload(db, c.file, GroupChat.UploadFields(c.file.value), uid, safe, hash);
            && up.status == 409 && up.db == db
            && GroupChat.Send(c, group, Http.Err(Some(up.status)), post).chat == c
            && GroupChat.Send(c, group, Http.Err(Some(up.status)), post).requests
               == [GroupChat.UploadRequest(c.file.value)]
  {
  }

  // ---- Direct messages ----------------------------------------------------

  /**
   * The conversation query the page sends for `me` and the selected peer
   * selects exactly the messages between those two users.
   */
  lemma ConversationQuerySelectsThePair(db: Store.Db, me: Session.User, peer: Session.User)
    ensures var q := DirectMessages.ConversationRequest(me, peer).query;
            forall m :: m in MessageApi.Conversation(db, ArgText(q["sender_id"]), ArgText(q["receiver_id"])) <==>
              m in db.directs
              && ((m.senderId == me.id && m.receiverId == Js.Num(peer.id))
                  || (m.senderId == peer.id && m.receiverId == Js.Num(me.id)))
  {
    NumberArgRoundTrip(me.id);
    NumberArgRoundTrip(peer.id);
  }

  /**
   * In a conversation the server does report the sender's id, so a message
   * is drawn as sent, and labelled with one's own name, exactly when `me`
   * wrote it.
   */
  lemma OwnDirectMessagesLookSent(db: Store.Db, me: Session.User, peer: Session.User)
    requires !MessageApi.OrphanBetween(db, Strings.IntText(me.id), Strings.IntText(peer.id))
    ensures MessageApi.GetDirect(db, Some(Strings.IntText(me.id)), Some(Strings.IntText(peer.id))).status == 200
    ensures var items := MessageApi.GetDirect(db, Some(Strings.IntText(me.id)), Some(Strings.IntText(peer.id))).body.items;
            var t := MessageApi.Conversation(db, Strings.IntText(me.id), Strings.IntText(peer.id));
            forall i :: 0 <= i < |items| ==>
              && ((MessageBubble.Render(DirectMessages.BubbleInput(items[i], me, peer), Some(me)).side
                   == MessageBubble.Sent) <==> t[i].senderId == me.id)
              && (t[i].senderId == me.id ==> DirectMessages.SenderName(items[i], me, peer) == me.username)
  {
    var r := MessageApi.GetDirect(db, Some(Strings.IntText(me.id)), Some(Strings.IntText(peer.id)));
    var t := MessageApi.Conversation(db, Strings.IntText(me.id), Strings.IntText(peer.id));
    forall i | 0 <= i < |r.body.items|
      ensures (MessageBubble.Render(DirectMessages.BubbleInput(r.body.items[i], me, peer), Some(me)).side
               == MessageBubble.Sent) <==> t[i].senderId == me.id
      ensures t[i].senderId == me.id ==> DirectMessages.SenderName(r.body.items[i], me, peer) == me.username
    {
      SenderIdDecidesSide(r.body.items[i], t[i].senderId, me, peer);
    }
  }

  /** A message carrying a numeric `sender_id` is drawn as sent exactly when that id is mine. */
  lemma SenderIdDecidesSide(m: Js.Value, sender: int, me: Session.User, peer: Session.User)
    requires m.Obj? && "sender_id" in m.fields && m.fields["sender_id"] == Js.Num(sender)
    ensures (MessageBubble.Render(DirectMessages.BubbleInput(m, me, peer), Some(me)).side
             == MessageBubble.Sent) <==> sender == me.id
    ensures sender == me.id ==> DirectMessages.SenderName(m, me, peer) == me.username
  {
    assert Js.Get(DirectMessages.BubbleInput(m, me, peer), "sender_id") == Js.Num(sender);
  }

  /**
   * A direct message the page sends is stored as sent by me to the peer,
   * unless the peer's id is 0, which the server reads as missing. What the
   * page appends, though, is the acknowledgement `{message, message_id}`:
   * it has no `sender_id`, so it is labelled with the peer's name, sits on
   * the received side, and shows no content.
   */
  lemma DirectAcknowledgementLooksReceived(db: Store.Db, d: DirectMessages.Dm, me: Session.User, now: int)
    requires !DirectMessages.SendBlocked(d)
    ensures var peer := d.selected.value;
            var r := MessageApi.SendDirect(db, DirectMessages.SendBody(d.text, peer).fields, me.id, now);
            && (r.status == 201 <==> peer.id != 0)
            && (r.status == 201 ==>
                  var m := r.db.directs[|db.directs|];
                  && m.content == Js.Str(d.text) && m.senderId == me.id && m.receiverId == Js.Num(peer.id)
                  && var dm := DirectMessages.Send(d, Http.Ok(r.body)).dm;
                     && |dm.messages| == |d.messages| + 1 && dm.messages[|d.messages|] == r.body
                     && AcknowledgementLooksReceived(r.body, me, peer))
  {
    var peer := d.selected.value;
    assert d.text != "";
    DirectPostStored(db, d.text, peer, me.id, now);
    var r := MessageApi.SendDirect(db, DirectMessages.SendBody(d.text, peer).fields, me.id, now);
    if r.status == 201 {
      AcknowledgementRendering(r.body, me, peer);
    }
  }

  /** The server's side of a direct message the page posts. */
  lemma DirectPostStored(db: Store.Db, text: string, peer: Session.User, uid: int, now: int)
    requires text != ""
    ensures var r := MessageApi.SendDirect(db, DirectMessages.SendBody(text, peer).fields, uid, now);
            && (r.status == 201 <==> peer.id != 0)
            && (r.status == 201 ==>
                  var m := r.db.directs[|db.directs|];
                  && m.content == Js.Str(text) && m.senderId == uid && m.receiverId == Js.Num(peer.id)
                  && r.body.Obj? && r.body.fields.Keys == {"message", "message_id"})
  {
    var data := DirectMessages.SendBody(text, peer).fields;
    assert MessageApi.Truthy(data, "content");
    assert MessageApi.ContentOf(data) == Js.Str(text);
    assert Store.Column(data["receiver_id"]) == Js.Num(peer.id);
  }

  /** How the direct-message page shows an item that has no `sender_id` and no `content`. */
  predicate AcknowledgementLooksReceived(ack: Js.Value, me: Session.User, peer: Session.User) {
    var b := MessageBubble.Render(DirectMessages.BubbleInput(ack, me, peer), Some(me));
    && DirectMessages.SenderName(ack, me, peer) == peer.username
    && b.side == MessageBubble.Received && b.content == Js.Undefined
  }

  lemma AcknowledgementRendering(ack: Js.Value, me: Session.User, peer: Session.User)
    requires ack.Obj? && ack.fields.Keys == {"message", "message_id"}
    ensures AcknowledgementLooksReceived(ack, me, peer)
  {
    var input := DirectMessages.BubbleInput(ack, me, peer);
    assert "sender_id" !in input.fields && "content" !in input.fields;
  }

  // ---- Sign-in ------------------------------------------------------------

  /**
   * A registration the server refuses (a short password, say) still leaves
   * the client signed in, as a fabricated user holding the mock token.
   */
  lemma RefusedRegistrationStillSignsIn(db: Store.Db, s: Session.State, p: Session.Profile, now: int,
                                        digest: string -> string, issue: int -> string)
    requires |p.password| < 8
    ensures AuthApi.Register(db, Texts(Session.RegisterBody(p).fields), digest, issue).status == 400
    ensures var st := Session.Register(s, p, Http.Err(Some(400)), now).state;
            st.user == Some(Session.DemoProfileUser(now, p)) && st.env.stored == Some(Session.MockToken)
            && Session.IsAuthenticated(st)
  {
    var data := Texts(Session.RegisterBody(p).fields);
    assert "password" in AuthApi.RegistrationErrors(data);
  }

  /**
   * The session a refused login fabricates survives until the next page
   * load: then the stored mock token is sent to `/api/auth/me`, and when
   * that is refused the user is signed out.
   */
  lemma MockSessionEndsOnReload(s: Session.State, email: string, password: string, status: Option<int>,
                                now: int, me: Http.Outcome<Session.User>)
    requires me.Err?
    ensures var st := Session.Login(s, email, password, Http.Err(status), now).state;
            && Session.IsAuthenticated(st)
            && !Session.IsAuthenticated(Session.Restore(Session.Reload(st), me).state)
  {
  }

  /**
   * A login the server refuses (no user with that email and password) is
   * answered 401. The page still signs in the demo user and navigates to
   * the library, but the response interceptor has left a reload to `/auth`
   * pending; once it runs, the mock token cannot fetch a user and the
   * sign-in page is what renders.
   */
  lemma WrongPasswordEndsOnSignIn(db: Store.Db, s: Session.State, f: AuthPage.Form, now: int,
                                  digest: string -> string, issueAccess: int -> string, issueRefresh: int -> string,
                                  me: Http.Outcome<Session.User>)
    requires s.env.reloadTo.None?
    requires !exists i :: 0 <= i < |db.users| && db.users[i].email == f.email
                          && AuthApi.PasswordMatches(db.users[i], Some(f.password), digest)
    requires me.Err?
    ensures var r := AuthApi.Login(db, Some(f.email), Some(f.password), digest, issueAccess, issueRefresh);
            var sub := AuthPage.Submit(s, true, f, Http.Err(Some(r.status)), now);
            var after := Session.Restore(Session.Reload(sub.state), me).state;
            && r.status == 401
            && Session.IsAuthenticated(sub.state)
            && Routes.Settle(sub.navigateTo, true, 0) == Routes.Render(Routes.Library)
            && sub.state.env.reloadTo == Some(Transport.AuthPath)
            && !Session.IsAuthenticated(after)
            && Routes.Settle(Routes.AuthLocation, Session.IsAuthenticated(after), 0) == Routes.Render(Routes.AuthPage)
  {
    var r := AuthApi.Login(db, Some(f.email), Some(f.password), digest, issueAccess, issueRefresh);
    assert r.status != 200;
    Routes.SignedInNeverSentToSignIn(Routes.Root);
    Routes.LiteralMatchesItself("auth");
  }

  // ---- Library, upload and groups -----------------------------------------

  /** The glyph a card shows and the server's allow-list look at the same suffix but disagree. */
  lemma IconAndAllowListDisagree()
    ensures ResourceCard.IconFor("pdf") == ResourceCard.Document && !ResourceApi.AllowedFile("pdf")
    ensures ResourceCard.IconFor("notes.txt") == ResourceCard.Folder && ResourceApi.AllowedFile("notes.txt")
  {
    assert Strings.AfterLast("pdf", '.') == "pdf";
    assert Strings.Lower("pdf") == "pdf" by {
      assert Strings.Lower("pdf")[0] == 'p' && Strings.Lower("pdf")[1] == 'd' && Strings.Lower("pdf")[2] == 'f';
    }
    assert Strings.AfterLast("notes.txt", '.') == "txt";
    assert Strings.Lower("txt") == "txt" by {
      assert Strings.Lower("txt")[0] == 't' && Strings.Lower("txt")[1] == 'x' && Strings.Lower("txt")[2] == 't';
    }
  }

  /** Every name with a dot that gets a non-default glyph would be accepted for upload. */
  lemma SpecificIconImpliesAllowed(name: string)
    requires '.' in name && ResourceCard.IconFor(name) != ResourceCard.Folder
    ensures ResourceApi.AllowedFile(name)
  {
    assert ResourceCard.Extension(name) == ResourceApi.Suffix(name);
  }

  /** The file picker's `accept` list (frontend/src/components/FileUpload.jsx) names the allowed extensions. */
  const PickerAccept: seq<string> := [".pdf", ".docx", ".pptx", ".txt", ".jpg", ".png"]

  lemma PickerMatchesAllowList()
    ensures (set e | e in PickerAccept :: e[1..]) == ResourceApi.AllowedExtensions
  {
    assert (set e | e in PickerAccept :: e[1..]) == {"pdf", "docx", "pptx", "txt", "jpg", "png"} by {
      assert PickerAccept[0][1..] == "pdf";
      assert PickerAccept[1][1..] == "docx";
      assert PickerAccept[2][1..] == "pptx";
      assert PickerAccept[3][1..] == "txt";
      assert PickerAccept[4][1..] == "jpg";
      assert PickerAccept[5][1..] == "png";
    }
  }

  /**
   * The upload page always sends all three form fields, so the server's
   * defaults never apply: a new resource keeps the form's texts.
   */
  lemma UploadStoresFormTexts(db: Store.Db, u: UploadPage.Upload, uid: int,
                              safe: string -> string, hash: seq<bv8> -> string)
    requires u.file.Some?
    requires ResourceApi.Upload(db, u.file, ResourceForm.MultipartFields(u.form), uid, safe, hash).status == 201
    ensures var r := ResourceApi.Upload(db, u.file, ResourceForm.MultipartFields(u.form), uid, safe, hash);
            var stored := r.db.resources[|db.resources|];
            && UploadPage.Submit(u, Http.Ok(r.body)).requests
               == [Http.PostForm(UploadPage.ResourcesPath, u.file.value, ResourceForm.MultipartFields(u.form))]
            && stored.title == u.form.title && stored.category == u.form.category
            && stored.description == Some(ResourceForm.FormText(u.form.description))
  {
  }

  /**
   * The editor's second request posts the replacement file with the form it
   * prefilled. When the fetched resource had a null description, FormData
   * sends the text "null", and an accepted upload stores that text.
   */
  lemma EditorPostsNullDescriptionAsText(db: Store.Db, e: EditResource.Edit, id: string,
                                         patch: Http.Outcome<Js.Value>, post: Http.Outcome<Js.Value>,
                                         uid: int, safe: string -> string, hash: seq<bv8> -> string)
    requires patch.Ok? && e.file.Some? && e.form.description.None?
    ensures var q := EditResource.Submit(e, id, patch, post).requests;
            && |q| == 2
            && q[1] == Http.PostForm(EditResource.ResourcesPath, e.file.value, ResourceForm.MultipartFields(e.form))
            && ResourceForm.MultipartFields(e.form)["description"] == "null"
    ensures var r := ResourceApi.Upload(db, e.file, ResourceForm.MultipartFields(e.form), uid, safe, hash);
            r.status == 201 ==> r.db.resources[|db.resources|].description == Some("null")
  {
  }

  /**
   * A confirmed delete the server carries out removes the resource both from
   * the server's table and from the page's list.
   */
  lemma DeleteAgreesWithServer(db: Store.Db, rs: seq<ResourceForm.Resource>, card: ResourceForm.Resource, uid: int)
    requires Store.Valid(db)
    requires ResourceApi.UpdateOrDelete(db, card.id, uid, ResourceApi.Delete).status == 200
    ensures var d := ResourceCard.Delete(card, true,
                       Http.Ok(ResourceApi.UpdateOrDelete(db, card.id, uid, ResourceApi.Delete).body));
            && d.removed == Some(card.id)
            && (forall x :: x in Library.Remove(rs, d.removed.value) ==> x.id != card.id)
            && (forall x :: x in ResourceApi.UpdateOrDelete(db, card.id, uid, ResourceApi.Delete).db.resources
                  ==> x.id != card.id)
  {
    ResourceApi.DeleteRemovesExactlyThatId(db, card.id, uid);
  }

  /**
   * Deleting a resource detaches it from every message, so once the chat
   * reloads, no item of any group's thread still names the deleted id and
   * no bubble offers an attachment that is gone.
   */
  lemma DeletedResourceLeavesThreads(db: Store.Db, id: int, uid: int, group: string)
    requires ResourceApi.UpdateOrDelete(db, id, uid, ResourceApi.Delete).status == 200
    ensures var g := MessageApi.GetMessages(ResourceApi.UpdateOrDelete(db, id, uid, ResourceApi.Delete).db, Some(group));
            g.status == 200 ==>
              forall i :: 0 <= i < |g.body.items| ==> Js.Get(g.body.items[i], "resource_id") != Js.Num(id)
  {
    ResourceApi.DeleteDetachesEveryMessage(db, id, uid);
    ThreadNamesNoResource(ResourceApi.UpdateOrDelete(db, id, uid, ResourceApi.Delete).db, id, group);
  }

  /** A thread is drawn from the stored messages, so it names no resource that none of them names. */
  lemma ThreadNamesNoResource(d: Store.Db, id: int, group: string)
    requires forall i :: 0 <= i < |d.messages| ==> d.messages[i].resourceId != Js.Num(id)
    ensures var g := MessageApi.GetMessages(d, Some(group));
            g.status == 200 ==>
              forall i :: 0 <= i < |g.body.items| ==> Js.Get(g.body.items[i], "resource_id") != Js.Num(id)
  {
    StoredThreadNamesNoResource(d, id, group);
    var g := MessageApi.GetMessages(d, Some(group));
    if g.status == 200 {
      forall i | 0 <= i < |g.body.items|
        ensures Js.Get(g.body.items[i], "resource_id") != Js.Num(id)
      {
        Js.GetPresent(g.body.items[i], "resource_id");
      }
    }
  }

  /** Every message of a thread is a stored message. */
  lemma StoredThreadNamesNoResource(d: Store.Db, id: int, group: string)
    requires forall i :: 0 <= i < |d.messages| ==> d.messages[i].resourceId != Js.Num(id)
    ensures forall i :: 0 <= i < |MessageApi.GroupThread(d, group)| ==>
              MessageApi.GroupThread(d, group)[i].resourceId != Js.Num(id)
  {
    var t := MessageApi.GroupThread(d, group);
    forall i | 0 <= i < |t| ensures t[i].resourceId != Js.Num(id) {
      assert t[i] in t;
      var j :| 0 <= j < |d.messages| && d.messages[j] == t[i];
    }
  }

  /**
   * A group the page creates is appended as the server's short reply, id and
   * name only: until the list is fetched again it shows no description and
   * no category.
   */
  lemma CreatedGroupLacksDetails(db: Store.Db, g: GroupPage.Groups, uid: int)
    requires g.form.name != "" && g.form.category != ""
    ensures var r := GroupApi.CreateGroup(db, Texts(GroupPage.CreateBody(g.form).fields), uid);
            var page := GroupPage.Submit(g, Http.Ok(r.body)).page;
            && r.status == 201
            && |page.groups| == |g.groups| + 1
            && Js.Get(page.groups[|g.groups|], "name") == Js.Str(g.form.name)
            && Js.Get(page.groups[|g.groups|], "description") == Js.Undefined
            && Js.Get(page.groups[|g.groups|], "category") == Js.Undefined
  {
    var data := Texts(GroupPage.CreateBody(g.form).fields);
    assert data["name"] == g.form.name && data["category"] == g.form.category;
    CreatedGroupReply(db, data, uid);
  }

  /** An accepted group creation answers with a `group` holding id and name only. */
  lemma CreatedGroupReply(db: Store.Db, data: map<string, string>, uid: int)
    requires Store.Given(data, "name") && Store.Given(data, "category")
    ensures var r := GroupApi.CreateGroup(db, data, uid);
            var group := Js.Get(r.body, "group");
            && r.status == 201 && !Js.Nullish(r.body)
            && Js.Get(group, "name") == Js.Str(data["name"])
            && Js.Get(group, "description") == Js.Undefined
            && Js.Get(group, "category") == Js.Undefined
  {
    var r := GroupApi.CreateGroup(db, data, uid);
    var created := r.db.groups[|db.groups|];
    var reply := Js.Obj(map["id" := Js.Num(created.id), "name" := Js.Str(created.name)]);
    assert Js.Get(r.body, "group") == reply;
  }

  /**
   * The edit and delete controls appear exactly for the user whose delete
   * the server carries out; everybody else would get a 403.
   */
  lemma ControlsShownExactlyToOwner(db: Store.Db, k: nat, card: ResourceForm.Resource, u: Session.User)
    requires Store.Valid(db) && k < |db.resources|
    requires card.id == db.resources[k].id && card.uploaderId == db.resources[k].owner
    ensures ResourceCard.ShowsOwnerActions(Some(u), card) <==>
            ResourceApi.UpdateOrDelete(db, card.id, u.id, ResourceApi.Delete).status == 200
  {
  }

  /** The resource the edit page reads from `response.data`; None when a field it uses has another shape. */
  function ResourceOf(j: Js.Value): Option<ResourceForm.Resource> {
    var id, title, description := Js.Get(j, "id"), Js.Get(j, "title"), Js.Get(j, "description");
    var category, fileName, owner := Js.Get(j, "category"), Js.Get(j, "file_name"), Js.Get(j, "uploader_id");
    if id.Num? && title.Str? && (description.Str? || description.Null?) && category.Str? && fileName.Str? && owner.Num?
    then Some(ResourceForm.Resource(id.n, title.s, if description.Str? then Some(description.s) else None,
                                    category.s, fileName.s, owner.n))
    else None
  }

  /**
   * Opening the editor on a resource whose uploader exists fills the form
   * with exactly the stored title, description and category. The editor
   * reads through the same route as a download, so it also counts one.
   */
  lemma OpeningEditorCountsADownload(db: Store.Db, e: EditResource.Edit, k: nat)
    requires Store.Valid(db) && k < |db.resources|
    requires Store.FindUser(db, db.resources[k].owner).Some?
    ensures var stored := db.resources[k];
            var r := ResourceApi.GetResource(db, stored.id);
            && r.status == 200 && ResourceOf(r.body).Some?
            && EditResource.Load(e, Strings.IntText(stored.id), Http.Ok(ResourceOf(r.body).value)).page.form
               == ResourceForm.Fields(stored.title, stored.description, stored.category)
            && r.db.resources[k].downloads == stored.downloads + 1
            && (forall j :: 0 <= j < |db.resources| && j != k ==> r.db.resources[j] == db.resources[j])
  {
    var stored := db.resources[k];
    ResourceApi.FoundAtItsIndex(db.resources, k);
    var res := stored.(downloads := stored.downloads + 1);
    var u := Store.FindUser(db, stored.owner).value;
    var r := ResourceApi.GetResource(db, stored.id);
    assert r.status == 200 && r.body == ResourceApi.ResourceJson(res, u);
    assert r.db.resources == db.resources[k := res];
    ResourceRoundTrip(res, u);
  }

  /** The edit page reads back from a resource's JSON exactly the record it was built from. */
  lemma ResourceRoundTrip(res: Store.ResourceRec, u: Store.UserRec)
    ensures ResourceOf(ResourceApi.ResourceJson(res, u))
            == Some(ResourceForm.Resource(res.id, res.title, res.description, res.category, res.fileName, res.owner))
  {
  }

  /**
   * A title the server finds too short is refused without a write, and the
   * edit page then stays where it is and uploads nothing.
   */
  lemma ShortTitleStaysOnEditor(db: Store.Db, e: EditResource.Edit, k: nat, uid: int, post: Http.Outcome<Js.Value>)
    requires Store.Valid(db) && k < |db.resources| && db.resources[k].owner == uid
    requires |e.form.title| < 3
    ensures var id := db.resources[k].id;
            var r := ResourceApi.UpdateOrDelete(db, id, uid, ResourceApi.Patch(Texts(EditResource.PatchBody(e.form).fields)));
            && r.status == 400 && r.db == db
            && EditResource.Submit(e, Strings.IntText(id), Http.Err(Some(r.status)), post).navigateTo.None?
            && |EditResource.Submit(e, Strings.IntText(id), Http.Err(Some(r.status)), post).requests| == 1
  {
    var data := Texts(EditResource.PatchBody(e.form).fields);
    assert "title" in data && data["title"] == e.form.title;
  }
}

=== FILE: group_chat.dfy ===
/**
 * The group conversation (frontend/src/pages/ChatPage.jsx): loading a
 * group with its messages, and sending a message that may first upload a
 * file as a resource.
 */
module GroupChat {
  import opened Wrappers
  import Js
  import opened Http
  import Strings
  import Session
  import MessageBubble

  datatype Chat = Chat(group: Js.Value, messages: seq<Js.Value>, text: string, file: Option<File>, loading: bool)

  datatype Step = Step(chat: Chat, requests: seq<Request>)

  const ResourcesPath := "/api/resources"
  const MessagesPath := "/api/messages"
  const AttachmentDescription := "Shared in group chat"
  const AttachmentCategory := "Chat Attachment"

  function Initial(): Chat {
    Chat(Js.Null, [], "", None, true)
  }

  function LoadRequests(groupId: string): seq<Request> {
    [Fetch("/api/groups/" + groupId), Request(GET, MessagesPath, map["group_id" := Js.Str(groupId)], NoBody)]
  }

  /**
   * `fetchGroupData`: both calls go out together; the group and the list are
   * replaced only when both succeed, and loading ends either way.
   */
  function Load(c: Chat, groupId: string, group: Outcome<Js.Value>, list: Outcome<seq<Js.Value>>): (r: Step)
    ensures r.requests == LoadRequests(groupId)
    ensures group.Ok? && list.Ok? ==> r.chat.messages == list.body && r.chat.group == group.body
    ensures group.Err? || list.Err? ==> r.chat.messages == c.messages && r.chat.group == c.group
    ensures r.chat.text == c.text && r.chat.file == c.file && !r.chat.loading
  {
    var next := if group.Ok? && list.Ok? then c.(group := group.body, messages := list.body) else c;
    Step(next.(loading := false), LoadRequests(groupId))
  }

  /** The send button is disabled, and a send does nothing, for blank text without a file. */
  predicate SendDisabled(c: Chat) {
    Strings.Trim(c.text) == "" && c.file.None?
  }

  function UploadFields(f: File): map<string, string> {
    map["title" := f.name, "description" := AttachmentDescription, "category" := AttachmentCategory]
  }

  function UploadRequest(f: File): Request {
    PostForm(ResourcesPath, f, UploadFields(f))
  }

  /** The message body: the text as typed (not trimmed), the route's group id, the attachment id or null. */
  function MessageBody(text: string, groupId: string, resourceId: Js.Value): Js.Value {
    Js.Obj(map["content" := Js.Str(text), "group_id" := Js.Str(groupId), "resource_id" := resourceId])
  }

  /**
   * The id the message will reference: null without a file; with a file, the
   * uploaded resource's `data.resource.id`. None when the upload failed or its
   * body has no `resource` (reading `.id` of undefined throws).
   */
  function AttachmentId(c: Chat, upload: Outcome<Js.Value>): Option<Js.Value> {
    if c.file.None? then Some(Js.Null)
    else match upload
      case Err(_) => None
      case Ok(body) => Js.Path(body, ["resource", "id"])
  }

  /**
   * `handleSendMessage`. Nothing happens when sending is disabled. With a
   * file, exactly one upload goes out first, and a failed upload stops the
   * send. The message post follows; its response body is appended and the
   * composer cleared on success, and a failed post changes nothing (an
   * uploaded file stays behind as its own resource).
   */
  function Send(c: Chat, groupId: string, upload: Outcome<Js.Value>, post: Outcome<Js.Value>): (r: Step)
    ensures SendDisabled(c) ==> r == Step(c, [])
    ensures !SendDisabled(c) && c.file.Some? ==> |r.requests| >= 1 && r.requests[0] == UploadRequest(c.file.value)
    ensures c.file.Some? && upload.Err? ==> r.requests == [UploadRequest(c.file.value)] && r.chat == c
    ensures !SendDisabled(c) && AttachmentId(c, upload).Some? ==>
      r.requests == (if c.file.Some? then [UploadRequest(c.file.value)] else [])
                    + [PostJson(MessagesPath, MessageBody(c.text, groupId, AttachmentId(c, upload).value))]
    ensures !SendDisabled(c) && AttachmentId(c, upload).Some? && post.Ok? ==>
      r.chat == c.(messages := c.messages + [post.body], text := "", file := None)
    ensures AttachmentId(c, upload).None? || post.Err? ==> r.chat == c
    ensures c.messages <= r.chat.messages && |r.chat.messages| <= |c.messages| + 1
  {
    if SendDisabled(c) then Step(c, [])
    else
      var uploads := if c.file.Some? then [UploadRequest(c.file.value)] else [];
      match AttachmentId(c, upload)
      case None => Step(c, uploads)
      case Some(rid) =>
        var requests := uploads + [PostJson(MessagesPath, MessageBody(c.text, groupId, rid))];
        match post
        case Ok(body) => Step(c.(messages := c.messages + [body], text := "", file := None), requests)
        case Err(_) => Step(c, requests)
  }

  /** The button is disabled exactly for the sends that would issue no request. */
  lemma DisabledExactlyWhenSilent(c: Chat, groupId: string, upload: Outcome<Js.Value>, post: Outcome<Js.Value>)
    ensures SendDisabled(c) <==> Send(c, groupId, upload, post).requests == []
  {
  }

  /** Blank text with no file issues nothing, whatever the server would answer. */
  lemma BlankSendIsSilent(c: Chat, groupId: string, upload: Outcome<Js.Value>, post: Outcome<Js.Value>)
    requires Strings.Blank(c.text) && c.file.None?
    ensures Send(c, groupId, upload, post) == Step(c, [])
  {
    Strings.TrimEmptyIffBlank(c.text);
  }

  /** A send issues at most one upload, and only as its first call. */
  lemma AtMostOneUpload(c: Chat, groupId: string, upload: Outcome<Js.Value>, post: Outcome<Js.Value>)
    ensures var rs := Send(c, groupId, upload, post).requests;
      |rs| <= 2 && forall i :: 0 < i < |rs| ==> !rs[i].payload.Multipart?
  {
  }

  /**
   * What `MessageBubble` receives for a loaded group message: `sender_id`
   * copied from `user_id` and `sender_username` from `uploader`.
   */
  function BubbleInput(message: Js.Value): Js.Value {
    Js.With(Js.With(message, "sender_id", Js.Get(message, "user_id")), "sender_username", Js.Get(message, "uploader"))
  }

  function BubbleFor(message: Js.Value, user: Option<Session.User>): MessageBubble.Bubble {
    MessageBubble.Render(BubbleInput(message), user)
  }
}

=== FILE: group_page.dfy ===
/**
 * The study-group page (frontend/src/pages/GroupPage.jsx): the group list,
 * the create-group form and its visibility toggle.
 */
module GroupPage {
  import opened Wrappers
  import Js
  import opened Http

  datatype Field = Name | Description | Category

  datatype GroupForm = GroupForm(name: string, description: string, category: string)

  datatype Groups = Groups(groups: seq<Js.Value>, loading: bool, form: GroupForm, showForm: bool)

  datatype Step = Step(page: Groups, requests: seq<Request>)

  const GroupsPath := "/api/groups"

  const BlankForm := GroupForm("", "", "General")

  function Initial(): Groups {
    Groups([], true, BlankForm, false)
  }

  /** `fetchGroups`: replace the list on success; loading ends either way. */
  function Load(g: Groups, list: Outcome<seq<Js.Value>>): (r: Step)
    ensures r.requests == [Fetch(GroupsPath)]
    ensures list.Ok? ==> r.page.groups == list.body
    ensures list.Err? ==> r.page.groups == g.groups
    ensures !r.page.loading && r.page.form == g.form && r.page.showForm == g.showForm
  {
    var next := if list.Ok? then g.(groups := list.body) else g;
    Step(next.(loading := false), [Fetch(GroupsPath)])
  }

  function Read(f: GroupForm, name: Field): string {
    match name
    case Name => f.name
    case Description => f.description
    case Category => f.category
  }

  /** `handleInputChange` */
  function Change(g: Groups, name: Field, value: string): (r: Groups)
    ensures Read(r.form, name) == value
    ensures forall other :: other != name ==> Read(r.form, other) == Read(g.form, other)
    ensures r.groups == g.groups && r.showForm == g.showForm
  {
    var f := g.form;
    g.(form := match name
      case Name => f.(name := value)
      case Description => f.(description := value)
      case Category => f.(category := value))
  }

  /** The "Create New Group" / "Cancel" button. */
  function Toggle(g: Groups): (r: Groups)
    ensures r.showForm == !g.showForm
    ensures r.groups == g.groups && r.form == g.form
  {
    g.(showForm := !g.showForm)
  }

  function CreateBody(f: GroupForm): Js.Value {
    Js.Obj(map["name" := Js.Str(f.name), "description" := Js.Str(f.description), "category" := Js.Str(f.category)])
  }

  /**
   * `handleSubmit`: post the form; on success append `data.group`, reset the
   * form and hide it. A failed call, or a body whose `group` cannot be read,
   * changes nothing.
   */
  function Submit(g: Groups, reply: Outcome<Js.Value>): (r: Step)
    ensures r.requests == [PostJson(GroupsPath, CreateBody(g.form))]
    ensures reply.Ok? && !Js.Nullish(reply.body) ==>
      r.page == g.(groups := g.groups + [Js.Get(reply.body, "group")], form := BlankForm, showForm := false)
    ensures reply.Err? || Js.Nullish(reply.body) ==> r.page == g
  {
    var req := PostJson(GroupsPath, CreateBody(g.form));
    match reply
    case Err(_) => Step(g, [req])
    case Ok(body) =>
      match Js.Prop(body, "group")
      case None => Step(g, [req])
      case Some(created) => Step(g.(groups := g.groups + [created], form := BlankForm, showForm := false), [req])
  }
}

=== FILE: http.dfy ===
/** Requests the client issues and the outcomes the transport hands back. */
module Http {
  import opened Wrappers
  import Js

  /** A file the user selected: its name and its bytes. */
  datatype File = File(name: string, content: seq<bv8>)

  datatype Method = GET | POST | PATCH | DELETE

  datatype Payload =
    | NoBody
    | Json(value: Js.Value)
    | Multipart(file: File, fields: map<string, string>)

  /** One call through the shared client, with its query parameters and body. */
  datatype Request = Request(verb: Method, path: string, query: map<string, Js.Value>, payload: Payload)

  /**
   * What a call resolves to once the response interceptor has run: a 2xx body,
   * or a rejection carrying the response status (None when no response arrived).
   */
  datatype Outcome<+T> = Ok(body: T) | Err(status: Option<int>)

  function Fetch(path: string): Request {
    Request(GET, path, map[], NoBody)
  }

  function PostJson(path: string, body: Js.Value): Request {
    Request(POST, path, map[], Json(body))
  }

  function PostForm(path: string, file: File, fields: map<string, string>): Request {
    Request(POST, path, map[], Multipart(file, fields))
  }
}

=== FILE: js.dfy ===
/**
 * JavaScript values as the client handles them: decoded JSON bodies, request
 * payloads and the plain objects a page keeps in its state. Every number the
 * system exchanges is an id or a count, so numbers are integers here.
 */
module Js {
  import opened Wrappers

  datatype Value =
    | Undefined
    | Null
    | Bool(b: bool)
    | Num(n: int)
    | Str(s: string)
    | Arr(items: seq<Value>)
    | Obj(fields: map<string, Value>)

  predicate Nullish(v: Value) {
    v.Undefined? || v.Null?
  }

  /** JavaScript's ToBoolean (`!!v`); there is no NaN or -0 among these values. */
  predicate Truthy(v: Value) {
    match v
    case Undefined => false
    case Null => false
    case Bool(b) => b
    case Num(n) => n != 0
    case Str(s) => s != ""
    case Arr(_) => true
    case Obj(_) => true
  }

  /** Python's truth value of the same JSON value once a Flask handler has decoded it. */
  predicate PyTruthy(v: Value) {
    match v
    case Undefined => false
    case Null => false
    case Bool(b) => b
    case Num(n) => n != 0
    case Str(s) => s != ""
    case Arr(items) => items != []
    case Obj(fields) => fields != map[]
  }

  /**
   * The property read `v.k`. None where JavaScript throws a TypeError
   * (reading a property of undefined or null); a missing key reads as undefined.
   */
  function Prop(v: Value, k: string): (r: Option<Value>)
    ensures r.None? <==> Nullish(v)
    ensures r.Some? && r.value != Undefined ==> v.Obj? && k in v.fields && v.fields[k] == r.value
  {
    match v
    case Undefined => None
    case Null => None
    case Obj(fs) => Some(if k in fs then fs[k] else Undefined)
    case _ => Some(Undefined)
  }

  /** Optional chaining `v?.k`: undefined instead of a TypeError. */
  function Get(v: Value, k: string): Value {
    Prop(v, k).GetOr(Undefined)
  }

  /** Reading a key an object has gives its value. */
  lemma GetPresent(v: Value, k: string)
    requires v.Obj? && k in v.fields
    ensures Get(v, k) == v.fields[k]
  {
  }

  /** The property chain `v.k1.k2...`, None as soon as one step throws. */
  function Path(v: Value, keys: seq<string>): Option<Value>
    decreases |keys|
  {
    if keys == [] then Some(v)
    else match Prop(v, keys[0])
      case None => None
      case Some(w) => Path(w, keys[1..])
  }

  predicate Primitive(v: Value) {
    !v.Arr? && !v.Obj?
  }

  /**
   * `a === b` where `b` is a primitive: no object is strictly equal to a
   * primitive, and primitives compare by value.
   */
  predicate StrictEq(a: Value, b: Value)
    requires Primitive(b)
  {
    a == b
  }

  /** The object literal `{...v, [k]: x}` for an object `v`. */
  function With(v: Value, k: string, x: Value): Value {
    Obj((if v.Obj? then v.fields else map[])[k := x])
  }
}

=== FILE: library.dfy ===
/**
 * The resource library (frontend/src/pages/LibraryPage.jsx): search and
 * category filtering, the category list, and removal after a delete.
 */
module Library {
  import opened Wrappers
  import Strings
  import Seqs
  import opened ResourceForm

  const AllCategories := "all"

  /** The title, or else the description, contains the query, ignoring case. */
  predicate MatchesSearch(r: Resource, query: string) {
    var q := Strings.Lower(query);
    || Strings.Includes(Strings.Lower(r.title), q)
    || (r.description.Some? && Strings.Includes(Strings.Lower(r.description.value), q))
  }

  predicate MatchesCategory(r: Resource, filter: string) {
    filter == AllCategories || r.category == filter
  }

  predicate Shows(r: Resource, query: string, filter: string) {
    MatchesSearch(r, query) && MatchesCategory(r, filter)
  }

  /** `filteredResources`: the resources that match, in list order. */
  function Visible(rs: seq<Resource>, query: string, filter: string): (r: seq<Resource>)
    ensures Seqs.IsSubsequence(r, rs)
    ensures forall x :: x in r <==> x in rs && Shows(x, query, filter)
    ensures forall x :: multiset(r)[x] == if Shows(x, query, filter) then multiset(rs)[x] else 0
  {
    var p := (x: Resource) => Shows(x, query, filter);
    forall x ensures x in Seqs.Filter(rs, p) <==> x in rs && p(x) {
      Seqs.FilterMembership(rs, p, x);
    }
    Seqs.Filter(rs, p)
  }

  /** With an empty query and the "all" filter the whole list is shown, in order. */
  lemma {:induction false} EverythingByDefault(rs: seq<Resource>)
    ensures Visible(rs, "", AllCategories) == rs
  {
    forall i | 0 <= i < |rs|
      ensures Shows(rs[i], "", AllCategories)
    {
      assert Strings.OccursAt(Strings.Lower(rs[i].title), "", 0);
    }
    Seqs.FilterAll(rs, (x: Resource) => Shows(x, "", AllCategories));
  }

  /** A resource without a description can match the search only through its title. */
  lemma NullDescriptionMatchesByTitle(r: Resource, query: string)
    requires r.description.None?
    ensures MatchesSearch(r, query) <==> Strings.Occurs(Strings.Lower(r.title), Strings.Lower(query))
  {
  }

  /** The category of each resource, in order. */
  function CategoryList(rs: seq<Resource>): seq<string> {
    seq(|rs|, i requires 0 <= i < |rs| => rs[i].category)
  }

  /**
   * `categories`: every category in the list exactly once, ordered by where
   * it first appears, collected through an insertion-ordered set.
   */
  method Categories(rs: seq<Resource>) returns (cats: seq<string>)
    ensures forall c :: c in cats <==> c in CategoryList(rs)
    ensures forall i, j :: 0 <= i < j < |cats| ==> cats[i] != cats[j]
    ensures forall i, j :: 0 <= i < j < |cats| ==>
      Seqs.FirstIndex(CategoryList(rs), cats[i]) < Seqs.FirstIndex(CategoryList(rs), cats[j])
  {
    var seen: set<string> := {};
    cats := [];
    var i := 0;
    while i < |rs|
      invariant 0 <= i <= |rs|
      invariant cats == Seqs.Distinct(CategoryList(rs[..i]))
      invariant seen == set c | c in cats
    {
      var c := rs[i].category;
      assert CategoryList(rs[..i + 1]) == CategoryList(rs[..i]) + [c];
      if c !in seen {
        cats := cats + [c];
        seen := seen + {c};
      }
      i := i + 1;
    }
    assert rs[..i] == rs;
  }

  /** `handleDelete`: drop every resource with the deleted id and keep the rest in order. */
  function Remove(rs: seq<Resource>, id: int): (r: seq<Resource>)
    ensures Seqs.IsSubsequence(r, rs)
    ensures forall x :: multiset(r)[x] == if x.id != id then multiset(rs)[x] else 0
    ensures forall i :: 0 <= i < |r| ==> r[i].id != id
  {
    Seqs.Filter(rs, (x: Resource) => x.id != id)
  }
}

=== FILE: message_bubble.dfy ===
/**
 * One rendered message (frontend/src/components/MessageBubble.jsx): which
 * side it sits on, what it shows, and whether it carries the attachment badge.
 */
module MessageBubble {
  import opened Wrappers
  import Js
  import Session

  datatype Side = Sent | Received

  datatype Bubble = Bubble(side: Side, sender: Js.Value, content: Js.Value, badge: bool)

  /** `currentUser?.id` */
  function CurrentId(user: Option<Session.User>): (v: Js.Value)
    ensures Js.Primitive(v)
    ensures v == Js.Undefined <==> user.None?
  {
    match user
    case Some(u) => Js.Num(u.id)
    case None => Js.Undefined
  }

  /**
   * The bubble for `message` as seen by `user`: "sent" exactly when the
   * message's `sender_id` is strictly equal to the current user's id (both
   * undefined counts), the badge exactly when `resource_id` is truthy, and
   * the sender name and content shown as given.
   */
  function Render(message: Js.Value, user: Option<Session.User>): (b: Bubble)
    ensures b.side == Sent <==>
      if user.Some? then Js.Get(message, "sender_id") == Js.Num(user.value.id)
      else Js.Get(message, "sender_id") == Js.Undefined
    ensures b.badge <==> Js.Truthy(Js.Get(message, "resource_id"))
    ensures b.sender == Js.Get(message, "sender_username") && b.content == Js.Get(message, "content")
  {
    var side := if Js.StrictEq(Js.Get(message, "sender_id"), CurrentId(user)) then Sent else Received;
    Bubble(side, Js.Get(message, "sender_username"), Js.Get(message, "content"),
           Js.Truthy(Js.Get(message, "resource_id")))
  }

  /** With nobody signed in, a message without `sender_id` is drawn as one's own. */
  lemma AnonymousOwnsSenderless(message: Js.Value)
    requires Js.Get(message, "sender_id") == Js.Undefined
    ensures Render(message, None).side == Sent
  {
  }

  /** A resource id of 0 or null shows no badge; any non-zero id does. */
  lemma BadgeNeedsTruthyResource(fields: map<string, Js.Value>, user: Option<Session.User>, id: int)
    ensures !Render(Js.Obj(fields["resource_id" := Js.Num(0)]), user).badge
    ensures !Render(Js.Obj(fields["resource_id" := Js.Null]), user).badge
    ensures id != 0 ==> Render(Js.Obj(fields["resource_id" := Js.Num(id)]), user).badge
  {
  }
}

=== FILE: resource_card.dfy ===
/**
 * One library card (frontend/src/components/ResourceCard.jsx): the file
 * icon, the owner-only edit/delete controls and the delete action.
 */
module ResourceCard {
  import opened Wrappers
  import Js
  import opened Http
  import Strings
  import Session
  import opened ResourceForm

  /** The glyphs 📄 📝 📊 🖼️ 📁, in that order. */
  datatype Icon = Document | Memo | Chart | Picture | Folder

  /** `fileName.split('.').pop().toLowerCase()` */
  function Extension(fileName: string): string {
    Strings.Lower(Strings.AfterLast(fileName, '.'))
  }

  /** `getFileIcon`: the icon follows the lower-cased text after the last dot. */
  function IconFor(fileName: string): (i: Icon)
    ensures i == Document <==> Extension(fileName) == "pdf"
    ensures i == Memo <==> Extension(fileName) == "docx"
    ensures i == Chart <==> Extension(fileName) == "pptx"
    ensures i == Picture <==> Extension(fileName) in {"jpg", "png"}
    ensures i == Folder <==> Extension(fileName) !in {"pdf", "docx", "pptx", "jpg", "png"}
  {
    match Extension(fileName)
    case "pdf" => Document
    case "docx" => Memo
    case "pptx" => Chart
    case "jpg" => Picture
    case "png" => Picture
    case _ => Folder
  }

  /** The edit and delete controls appear exactly for the resource's uploader. */
  predicate ShowsOwnerActions(user: Option<Session.User>, r: Resource) {
    user.Some? && user.value.id == r.uploaderId
  }

  datatype Deleted = Deleted(requests: seq<Request>, removed: Option<int>)

  function DeleteRequest(r: Resource): Request {
    Request(DELETE, "/api/resources/" + Strings.IntText(r.id), map[], NoBody)
  }

  /**
   * `handleDelete`: ask for confirmation; if given, delete on the server and
   * report the id to the list only when that succeeded.
   */
  function Delete(r: Resource, confirmed: bool, reply: Outcome<Js.Value>): (d: Deleted)
    ensures !confirmed ==> d.requests == []
    ensures confirmed ==> d.requests == [DeleteRequest(r)]
    ensures d.removed.Some? <==> confirmed && reply.Ok?
    ensures d.removed.Some? ==> d.removed.value == r.id
  {
    if !confirmed then Deleted([], None)
    else Deleted([DeleteRequest(r)], if reply.Ok? then Some(r.id) else None)
  }
}

=== FILE: resource_form.dfy ===
/**
 * What the client knows of a shared resource, and the title/description/
 * category form that the upload and edit pages both keep.
 */
module ResourceForm {
  import opened Wrappers

  /** One resource as the server lists it (`description` is nullable). */
  datatype Resource = Resource(id: int, title: string, description: Option<string>, category: string,
                               fileName: string, uploaderId: int)

  datatype Field = Title | Description | Category

  datatype Fields = Fields(title: string, description: Option<string>, category: string)

  function Read(f: Fields, name: Field): Option<string> {
    match name
    case Title => Some(f.title)
    case Description => f.description
    case Category => Some(f.category)
  }

  /** `{...formData, [name]: value}`: the named field takes the value, the others keep theirs. */
  function Update(f: Fields, name: Field, value: string): (r: Fields)
    ensures Read(r, name) == Some(value)
    ensures forall other :: other != name ==> Read(r, other) == Read(f, other)
  {
    match name
    case Title => f.(title := value)
    case Description => f.(description := Some(value))
    case Category => f.(category := value)
  }

  /** `FormData.append(name, value)` turns a null value into the text "null". */
  function FormText(v: Option<string>): string {
    v.GetOr("null")
  }

  /** The text parts of a multipart upload: title, description and category from the form. */
  function MultipartFields(f: Fields): (m: map<string, string>)
    ensures m.Keys == {"title", "description", "category"}
    ensures m["title"] == f.title && m["category"] == f.category
    ensures f.description.Some? ==> m["description"] == f.description.value
    ensures f.description.None? ==> m["description"] == "null"
  {
    map["title" := f.title, "description" := FormText(f.description), "category" := f.category]
  }
}

=== FILE: routes.dfy ===
/**
 * The route table of frontend/src/App.jsx and its `ProtectedRoute` gate.
 * A location is the list of its non-empty path segments, which is how the
 * router compares paths (a trailing slash does not matter); static segments
 * match without regard to ASCII case, as the router's default is.
 */
module Routes {
  import opened Wrappers
  import Strings

  type Path = seq<string>

  datatype Page =
    | AuthPage
    | Library
    | Groups
    | Chat(groupId: string)
    | Messages
    | Upload
    | EditResource(resourceId: string)

  datatype View = Render(page: Page) | Redirect(to: Path)

  const Root: Path := []
  const AuthLocation: Path := ["auth"]

  predicate Is(segment: string, literal: string) {
    Strings.Lower(segment) == literal
  }

  /** The page whose route matches `p`, None for the catch-all `*`. */
  function Match(p: Path): (r: Option<Page>)
    ensures r == Some(Library) <==> p == Root
    ensures r == Some(AuthPage) <==> |p| == 1 && Is(p[0], "auth")
    ensures r == Some(Groups) <==> |p| == 1 && Is(p[0], "groups")
    ensures r == Some(Messages) <==> |p| == 1 && Is(p[0], "messages")
    ensures r == Some(Upload) <==> |p| == 1 && Is(p[0], "upload")
    ensures (r.Some? && r.value.Chat?) <==> |p| == 2 && Is(p[0], "chat") && p[1] != ""
    ensures r.Some? && r.value.Chat? ==> r.value.groupId == p[1]
    ensures (r.Some? && r.value.EditResource?) <==>
              |p| == 3 && Is(p[0], "resources") && p[1] != "" && Is(p[2], "edit")
    ensures r.Some? && r.value.EditResource? ==> r.value.resourceId == p[1]
    ensures r.None? ==> p != Root && p != AuthLocation
  {
    if p == [] then Some(Library)
    else if |p| == 1 && Is(p[0], "auth") then Some(AuthPage)
    else if |p| == 1 && Is(p[0], "groups") then Some(Groups)
    else if |p| == 2 && Is(p[0], "chat") && p[1] != "" then Some(Chat(p[1]))
    else if |p| == 1 && Is(p[0], "messages") then Some(Messages)
    else if |p| == 1 && Is(p[0], "upload") then Some(Upload)
    else if |p| == 3 && Is(p[0], "resources") && p[1] != "" && Is(p[2], "edit") then Some(EditResource(p[1]))
    else None
  }

  predicate Protected(page: Page) {
    page != AuthPage
  }

  /**
   * What the router shows at `p`: the sign-in page always; a protected page
   * only with a current user, otherwise a redirect to `/auth`; anything
   * unmatched redirects to `/`.
   */
  function Resolve(p: Path, signedIn: bool): (v: View)
    ensures Match(p) == Some(AuthPage) ==> v == Render(AuthPage)
    ensures Match(p).Some? && Protected(Match(p).value) ==>
      v == (if signedIn then Render(Match(p).value) else Redirect(AuthLocation))
    ensures Match(p).None? ==> v == Redirect(Root)
  {
    match Match(p)
    case None => Redirect(Root)
    case Some(page) =>
      if !Protected(page) || signedIn then Render(page) else Redirect(AuthLocation)
  }

  /** Follow at most `hops` redirects from `p`. */
  function Settle(p: Path, signedIn: bool, hops: nat): View
    decreases hops
  {
    match Resolve(p, signedIn)
    case Render(page) => Render(page)
    case Redirect(to) => if hops == 0 then Redirect(to) else Settle(to, signedIn, hops - 1)
  }

  /**
   * Without a current user every location reaches the sign-in page within
   * two redirects (an unmatched path goes to `/`, which goes to `/auth`).
   */
  lemma {:induction false} AnonymousReachesSignIn(p: Path)
    ensures Settle(p, false, 2) == Render(AuthPage)
  {
    assert Match(AuthLocation) == Some(AuthPage);
    assert Resolve(AuthLocation, false) == Render(AuthPage);
    assert Resolve(Root, false) == Redirect(AuthLocation);
  }

  /** A route literal without capitals matches itself. */
  lemma LiteralMatchesItself(literal: string)
    requires forall i :: 0 <= i < |literal| ==> !('A' <= literal[i] <= 'Z')
    ensures Is(literal, literal)
  {
    Strings.LowerOfLower(literal);
  }

  /**
   * Each of the six protected routes of the table sends a visitor without a
   * current user to `/auth`, and shows its page to one with a current user.
   */
  lemma ProtectedRoutesNeedSignIn(groupId: string, resourceId: string, signedIn: bool)
    requires groupId != "" && resourceId != ""
    ensures var gate := (page: Page) => if signedIn then Render(page) else Redirect(AuthLocation);
            && Resolve(Root, signedIn) == gate(Library)
            && Resolve(["groups"], signedIn) == gate(Groups)
            && Resolve(["chat", groupId], signedIn) == gate(Chat(groupId))
            && Resolve(["messages"], signedIn) == gate(Messages)
            && Resolve(["upload"], signedIn) == gate(Upload)
            && Resolve(["resources", resourceId, "edit"], signedIn) == gate(EditResource(resourceId))
  {
    LiteralMatchesItself("groups");
    LiteralMatchesItself("chat");
    LiteralMatchesItself("messages");
    LiteralMatchesItself("upload");
    LiteralMatchesItself("resources");
    LiteralMatchesItself("edit");
  }

  /** With a current user no location settles anywhere but on a page, and `/` is the library. */
  lemma {:induction false} SignedInNeverSentToSignIn(p: Path)
    ensures Settle(p, true, 1).Render?
    ensures Match(p).Some? ==> Settle(p, true, 0) == Render(Match(p).value)
    ensures Settle(Root, true, 0) == Render(Library)
  {
    assert Resolve(Root, true) == Render(Library);
  }
}

=== FILE: seqs.dfy ===
/** Order-preserving list operations shared by the client pages and the server queries. */
module Seqs {

  /** `a` can be obtained from `b` by deleting elements, keeping the order of the rest. */
  predicate IsSubsequence<T(==,!new)>(a: seq<T>, b: seq<T>)
    decreases |b|
  {
    if a == [] then true
    else if b == [] then false
    else if a[0] == b[0] then IsSubsequence(a[1..], b[1..])
    else IsSubsequence(a, b[1..])
  }

  /**
   * `s.filter(p)`: the elements of `s` that satisfy `p`, in their order and
   * with their multiplicity, and nothing else.
   */
  function Filter<T(==,!new)>(s: seq<T>, p: T -> bool): (r: seq<T>)
    ensures IsSubsequence(r, s)
    ensures forall i :: 0 <= i < |r| ==> p(r[i])
    ensures forall x :: multiset(r)[x] == if p(x) then multiset(s)[x] else 0
    decreases |s|
  {
    if s == [] then []
    else
      var rest := Filter(s[1..], p);
      assert s == [s[0]] + s[1..];
      if p(s[0]) then [s[0]] + rest else rest
  }

  lemma FilterMembership<T(!new)>(s: seq<T>, p: T -> bool, x: T)
    ensures x in Filter(s, p) <==> x in s && p(x)
  {
    assert x in Filter(s, p) <==> multiset(Filter(s, p))[x] > 0;
    assert x in s <==> multiset(s)[x] > 0;
  }

  /** Two lists with the same members have a member with property `q` together. */
  lemma SameMembersWitness<T>(t: seq<T>, s: seq<T>, p: T -> bool, q: T -> bool)
    requires forall x :: x in t <==> x in s && p(x)
    ensures (exists i :: 0 <= i < |t| && q(t[i])) <==> (exists i :: 0 <= i < |s| && p(s[i]) && q(s[i]))
  {
    if i :| 0 <= i < |t| && q(t[i]) {
      assert t[i] in t;
      var j :| 0 <= j < |s| && s[j] == t[i];
    }
    if i :| 0 <= i < |s| && p(s[i]) && q(s[i]) {
      assert s[i] in s;
      var j :| 0 <= j < |t| && t[j] == s[i];
    }
  }

  /** Filtering with a predicate every element satisfies gives the list back. */
  lemma FilterAll<T(!new)>(s: seq<T>, p: T -> bool)
    requires forall i :: 0 <= i < |s| ==> p(s[i])
    ensures Filter(s, p) == s
    decreases |s|
  {
    if s != [] {
      FilterAll(s[1..], p);
    }
  }

  /** Filtering with two predicates that agree on every element gives the same list. */
  lemma FilterExt<T(!new)>(s: seq<T>, p: T -> bool, q: T -> bool)
    requires forall i :: 0 <= i < |s| ==> p(s[i]) == q(s[i])
    ensures Filter(s, p) == Filter(s, q)
    decreases |s|
  {
    if s != [] {
      FilterExt(s[1..], p, q);
    }
  }

  predicate SortedBy<T>(s: seq<T>, key: T -> int) {
    forall i, j :: 0 <= i < j < |s| ==> key(s[i]) <= key(s[j])
  }

  /** Places `x` after every element whose key does not exceed its own. */
  function Insert<T(==,!new)>(x: T, s: seq<T>, key: T -> int): (r: seq<T>)
    requires SortedBy(s, key)
    ensures SortedBy(r, key)
    ensures multiset(r) == multiset(s) + multiset{x}
    decreases |s|
  {
    if s == [] then [x]
    else if key(x) < key(s[0]) then
      ConsSorted(x, s, key);
      [x] + s
    else
      assert s == [s[0]] + s[1..];
      TailSorted(s, key);
      var rest := Insert(x, s[1..], key);
      BoundKept(s[1..], x, rest, key, key(s[0]));
      ConsSorted(s[0], rest, key);
      [s[0]] + rest
  }

  /** The tail of a sorted list is sorted and bounded below by its head. */
  lemma TailSorted<T>(s: seq<T>, key: T -> int)
    requires s != [] && SortedBy(s, key)
    ensures SortedBy(s[1..], key)
    ensures forall i :: 0 <= i < |s[1..]| ==> key(s[0]) <= key(s[1..][i])
  {
    assert forall i :: 0 <= i < |s[1..]| ==> s[1..][i] == s[i + 1];
  }

  /** Putting an element no larger than any other in front keeps a list sorted. */
  lemma ConsSorted<T>(y: T, s: seq<T>, key: T -> int)
    requires SortedBy(s, key)
    requires forall i :: 0 <= i < |s| ==> key(y) <= key(s[i])
    ensures SortedBy([y] + s, key)
  {
    var r := [y] + s;
    assert forall i :: 1 <= i < |r| ==> r[i] == s[i - 1];
  }

  /** A lower bound on the keys of `s` and of `x` bounds every key of a permutation of `s` plus `x`. */
  lemma BoundKept<T>(s: seq<T>, x: T, r: seq<T>, key: T -> int, b: int)
    requires multiset(r) == multiset(s) + multiset{x}
    requires b <= key(x) && forall i :: 0 <= i < |s| ==> b <= key(s[i])
    ensures forall i :: 0 <= i < |r| ==> b <= key(r[i])
  {
    forall i | 0 <= i < |r|
      ensures b <= key(r[i])
    {
      assert r[i] in multiset(r);
      if r[i] != x {
        assert r[i] in multiset(s);
        var j :| 0 <= j < |s| && s[j] == r[i];
      }
    }
  }

  /** The elements of `s` in ascending key order: the server's `ORDER BY key ASC`. */
  function SortBy<T(==,!new)>(s: seq<T>, key: T -> int): (r: seq<T>)
    ensures SortedBy(r, key)
    ensures multiset(r) == multiset(s)
    decreases |s|
  {
    if s == [] then []
    else
      assert s == [s[0]] + s[1..];
      Insert(s[0], SortBy(s[1..], key), key)
  }

  /** Where `x` first occurs in `s`. */
  function FirstIndex<T(==)>(s: seq<T>, x: T): (k: nat)
    requires x in s
    ensures k < |s| && s[k] == x && x !in s[..k]
    decreases |s|
  {
    if s[0] == x then 0 else 1 + FirstIndex(s[1..], x)
  }

  /** Extending a list at the end does not move any first occurrence already in it. */
  lemma FirstIndexExtend<T>(s: seq<T>, y: T, x: T)
    requires x in s
    ensures x in s + [y] && FirstIndex(s + [y], x) == FirstIndex(s, x)
  {
    var k := FirstIndex(s, x);
    assert (s + [y])[k] == x;
  }

  /**
   * `[...new Set(s)]`: each element of `s` once, in the order of first
   * occurrence.
   */
  function Distinct<T(==,!new)>(s: seq<T>): (r: seq<T>)
    ensures forall x :: x in r <==> x in s
    ensures forall i, j :: 0 <= i < j < |r| ==> r[i] != r[j]
    ensures forall i, j :: 0 <= i < j < |r| ==> FirstIndex(s, r[i]) < FirstIndex(s, r[j])
    decreases |s|
  {
    if s == [] then []
    else
      var init := s[..|s| - 1];
      var last := s[|s| - 1];
      assert s == init + [last];
      var d := Distinct(init);
      forall x | x in init
        ensures FirstIndex(s, x) == FirstIndex(init, x) < |s| - 1
      {
        FirstIndexExtend(init, last, x);
      }
      if last in d then d
      else
        assert FirstIndex(s, last) == |s| - 1;
        d + [last]
  }
}

=== FILE: session.dfy ===
/**
 * The authentication context (frontend/src/context/AuthContext.jsx): start-up
 * restore, login, register, logout and the derived "is authenticated" flag.
 * Each async handler is one step from a state and the outcomes of the calls
 * it makes to the next state and the calls it made.
 */
module Session {
  import opened Wrappers
  import Js
  import opened Http
  import opened Transport

  /** The identity the server reports (ids are the database's integer keys). */
  datatype User = User(id: int, username: string, email: string, fullName: string)

  /** The body of a successful login or registration. */
  datatype AuthReply = AuthReply(accessToken: string, user: User)

  /** What the registration form submits. */
  datatype Profile = Profile(email: string, username: string, password: string, fullName: string)

  /** The context's React state together with the browser state it writes. */
  datatype State = State(env: Env, user: Option<User>, loading: bool)

  /** A handler's result: the next state and the calls it issued, in order. */
  datatype Step = Step(state: State, requests: seq<Request>)

  /** `login` and `register` also resolve to a boolean. */
  datatype Attempt = Attempt(state: State, result: bool, requests: seq<Request>)

  const MockToken := "mock-token"
  const MePath := "/api/auth/me"
  const LoginPath := "/api/auth/login"
  const RegisterPath := "/api/auth/register"

  /** `isAuthenticated: !!currentUser`, derived on every render and never stored. */
  predicate IsAuthenticated(s: State) {
    s.user.Some?
  }

  /** The session invariant: no signed-in user without a stored token. */
  predicate TokenGuardsUser(s: State) {
    s.env.stored.None? ==> s.user.None?
  }

  /**
   * A page load: React state starts over (no user, loading), the axios
   * instance is new (no default header), localStorage survives.
   */
  function Boot(stored: Option<string>): State {
    State(Env(stored, None, None), None, true)
  }

  /** A requested `window.location.href` navigation taking effect: the page loads again. */
  function Reload(s: State): State {
    Boot(s.env.stored)
  }

  /** `logout`: forget the token, the default header and the user. */
  function Logout(s: State): (r: State)
    ensures r.env.stored.None? && r.env.defaultAuth.None? && r.user.None?
    ensures r.env.reloadTo == s.env.reloadTo && r.loading == s.loading
    ensures TokenGuardsUser(r)
  {
    State(s.env.(stored := None, defaultAuth := None), None, s.loading)
  }

  /** Logging out twice is logging out once. */
  lemma LogoutIdempotent(s: State)
    ensures Logout(Logout(s)) == Logout(s)
  {
  }

  /**
   * The start-up effect and `fetchUserData`: with a stored token, install it
   * as the default header and ask the server who it belongs to; keep the
   * answer, or log out when the call fails. Loading ends either way.
   */
  function Restore(s: State, me: Outcome<User>): (r: Step)
    ensures !HasToken(s.env) ==> r.requests == [] && r.state == s.(loading := false)
    ensures HasToken(s.env) ==> r.requests == [Fetch(MePath)]
    ensures HasToken(s.env) && me.Ok? ==>
      && r.state.user == Some(me.body)
      && r.state.env.stored == s.env.stored
      && r.state.env.defaultAuth == Some(Bearer(s.env.stored.value))
    ensures HasToken(s.env) && me.Err? ==>
      r.state.user.None? && r.state.env.stored.None? && r.state.env.defaultAuth.None?
    ensures me == Err(Some(401)) && HasToken(s.env) ==> r.state.env.reloadTo == Some(AuthPath)
    ensures !r.state.loading
  {
    if HasToken(s.env) then
      var installed := s.env.(defaultAuth := Some(Bearer(s.env.stored.value)));
      var (env', _) := Respond(installed, me);
      var s' := s.(env := env');
      var done := match me
        case Ok(u) => s'.(user := Some(u))
        case Err(_) => Logout(s');
      Step(done.(loading := false), [Fetch(MePath)])
    else
      Step(s.(loading := false), [])
  }

  /** The identity `login` fabricates when the call fails (`id: Date.now()` is `now`). */
  function DemoUser(now: int, email: string): User {
    User(now, "demo-user", if email == "" then "demo@example.com" else email, "Demo User")
  }

  /** The identity `register` fabricates when the call fails; empty fields fall back to demo values. */
  function DemoProfileUser(now: int, p: Profile): User {
    User(now,
         if p.username == "" then "demo-user" else p.username,
         if p.email == "" then "demo@example.com" else p.email,
         if p.fullName == "" then "Demo User" else p.fullName)
  }

  /** Success path shared by login and register: store, install, remember. */
  function SignIn(s: State, reply: AuthReply): State {
    State(s.env.(stored := Some(reply.accessToken), defaultAuth := Some(Bearer(reply.accessToken))),
          Some(reply.user), s.loading)
  }

  /** Fallback path shared by login and register: a mock token but no default header. */
  function SignInMock(s: State, u: User): State {
    State(s.env.(stored := Some(MockToken)), Some(u), s.loading)
  }

  function LoginBody(email: string, password: string): Js.Value {
    Js.Obj(map["email" := Js.Str(email), "password" := Js.Str(password)])
  }

  /**
   * `login(email, password)`. On success the returned token is stored and
   * installed and the returned user kept; on any failure a demo session is
   * fabricated instead. Either way the call resolves to true. A 401 refusal
   * has already passed the response interceptor, which leaves a reload to
   * `/auth` pending.
   */
  function Login(s: State, email: string, password: string, reply: Outcome<AuthReply>, now: int): (r: Attempt)
    ensures r.requests == [PostJson(LoginPath, LoginBody(email, password))]
    ensures r.result
    ensures reply.Ok? ==>
      && r.state.env.stored == Some(reply.body.accessToken)
      && r.state.env.defaultAuth == Some(Bearer(reply.body.accessToken))
      && r.state.user == Some(reply.body.user)
    ensures reply.Err? ==>
      && r.state.env.stored == Some(MockToken)
      && r.state.env.defaultAuth == s.env.defaultAuth
      && r.state.user == Some(DemoUser(now, email))
      && r.state.user.value.username == "demo-user"
    ensures reply == Err(Some(401)) ==> r.state.env.reloadTo == Some(AuthPath)
    ensures reply != Err(Some(401)) ==> r.state.env.reloadTo == s.env.reloadTo
    ensures r.state.loading == s.loading
  {
    var (env', _) := Respond(s.env, reply);
    var s' := s.(env := env');
    var next := match reply
      case Ok(body) => SignIn(s', body)
      case Err(_) => SignInMock(s', DemoUser(now, email));
    Attempt(next, true, [PostJson(LoginPath, LoginBody(email, password))])
  }

  function RegisterBody(p: Profile): Js.Value {
    Js.Obj(map["email" := Js.Str(p.email), "username" := Js.Str(p.username),
               "password" := Js.Str(p.password), "full_name" := Js.Str(p.fullName)])
  }

  /** `register(userData)`: login's two paths, with the fallback identity taken from the profile. */
  function Register(s: State, p: Profile, reply: Outcome<AuthReply>, now: int): (r: Attempt)
    ensures r.requests == [PostJson(RegisterPath, RegisterBody(p))]
    ensures r.result
    ensures reply.Ok? ==>
      && r.state.env.stored == Some(reply.body.accessToken)
      && r.state.env.defaultAuth == Some(Bearer(reply.body.accessToken))
      && r.state.user == Some(reply.body.user)
    ensures reply.Err? ==>
      && r.state.env.stored == Some(MockToken)
      && r.state.env.defaultAuth == s.env.defaultAuth
      && r.state.user.Some?
      && r.state.user.value.id == now
      && r.state.user.value.username == (if p.username == "" then "demo-user" else p.username)
      && r.state.user.value.email == (if p.email == "" then "demo@example.com" else p.email)
      && r.state.user.value.fullName == (if p.fullName == "" then "Demo User" else p.fullName)
    ensures reply == Err(Some(401)) ==> r.state.env.reloadTo == Some(AuthPath)
    ensures reply != Err(Some(401)) ==> r.state.env.reloadTo == s.env.reloadTo
    ensures r.state.loading == s.loading
  {
    var (env', _) := Respond(s.env, reply);
    var s' := s.(env := env');
    var next := match reply
      case Ok(body) => SignIn(s', body)
      case Err(_) => SignInMock(s', DemoProfileUser(now, p));
    Attempt(next, true, [PostJson(RegisterPath, RegisterBody(p))])
  }

  /** Some response to a call made by any component reaching the context's browser state. */
  function OnRejection(s: State, status: Option<int>): State {
    s.(env := Respond<()>(s.env, Err(status)).0)
  }

  /**
   * Every completed login or register, on either path, ends signed in with
   * a stored token, so the invariant holds afterwards.
   */
  lemma SignInEstablishesInvariant(s: State, email: string, password: string, p: Profile,
                                   lr: Outcome<AuthReply>, rr: Outcome<AuthReply>, now: int)
    ensures var a := Login(s, email, password, lr, now).state;
      IsAuthenticated(a) && a.env.stored.Some? && TokenGuardsUser(a)
    ensures var b := Register(s, p, rr, now).state;
      IsAuthenticated(b) && b.env.stored.Some? && TokenGuardsUser(b)
  {
  }

  /** Restore keeps the invariant, whatever the server answers. */
  lemma RestorePreservesInvariant(s: State, me: Outcome<User>)
    requires TokenGuardsUser(s)
    ensures TokenGuardsUser(Restore(s, me).state)
  {
  }

  /** A page load followed by restore always satisfies the invariant. */
  lemma StartUpEstablishesInvariant(stored: Option<string>, me: Outcome<User>)
    ensures TokenGuardsUser(Restore(Boot(stored), me).state)
    ensures !HasToken(Boot(stored).env) ==>
      Restore(Boot(stored), me).requests == [] && !IsAuthenticated(Restore(Boot(stored), me).state)
  {
  }

  /**
   * A 401 teardown removes the token but not the user: right after it a
   * signed-in context holds a user with no stored token, until the requested
   * page load runs restore again.
   */
  lemma UnauthorizedLeavesUser(s: State, me: Outcome<User>)
    requires IsAuthenticated(s)
    ensures var t := OnRejection(s, Some(401));
      IsAuthenticated(t) && !TokenGuardsUser(t) && t.env.reloadTo == Some(AuthPath)
    ensures var u := Restore(Reload(OnRejection(s, Some(401))), me);
      !IsAuthenticated(u.state) && u.requests == [] && TokenGuardsUser(u.state)
  {
  }

  /** Any other failure leaves the browser state and the user alone. */
  lemma OtherFailuresKeepSession(s: State, status: Option<int>)
    requires status != Some(401)
    ensures OnRejection(s, status) == s
  {
  }
}

=== FILE: store.dfy ===
/**
 * The server's database (backend/models.py) as one value: a sequence of
 * records per table. Ids are assigned the way SQLite assigns row ids (one
 * more than the largest in the table); `email`, `username` and `file_hash`
 * carry unique constraints.
 */
module Store {
  import opened Wrappers
  import Js
  import Strings

  datatype UserRec = UserRec(id: int, email: string, username: string, fullName: string,
                             fieldOfStudy: Option<string>, password: string)

  datatype ResourceRec = ResourceRec(id: int, title: string, description: Option<string>, category: string,
                                     fileName: string, fileSize: int, fileHash: string, downloads: int, owner: int)

  datatype GroupRec = GroupRec(id: int, name: string, description: string, category: string, createdBy: int)

  datatype MemberRec = MemberRec(id: int, userId: int, groupId: int, role: string)

  /**
   * The id columns a client fills in (`group_id`, `receiver_id`,
   * `resource_id`) hold whatever value SQLite stored for the JSON value sent,
   * see `Column`; `Js.Null` is SQL NULL.
   */
  datatype MessageRec = MessageRec(id: int, content: Js.Value, userId: int, groupId: Js.Value,
                                   resourceId: Js.Value, createdAt: int)

  datatype DirectRec = DirectRec(id: int, content: Js.Value, senderId: int, receiverId: Js.Value,
                                 resourceId: Js.Value, createdAt: int, read: bool)

  datatype Db = Db(users: seq<UserRec>, resources: seq<ResourceRec>, groups: seq<GroupRec>,
                   members: seq<MemberRec>, messages: seq<MessageRec>, directs: seq<DirectRec>)

  /** A handler's answer: the HTTP status, the JSON body, and the database afterwards. */
  datatype Response = Response(status: int, body: Js.Value, db: Db)

  /** No two records of `s` share a key. */
  predicate UniqueBy<T, K(==)>(s: seq<T>, key: T -> K) {
    forall i, j :: 0 <= i < j < |s| ==> key(s[i]) != key(s[j])
  }

  /** The keys declared unique, plus every table's primary key. */
  predicate Valid(db: Db) {
    && UniqueBy(db.users, (u: UserRec) => u.id)
    && UniqueBy(db.users, (u: UserRec) => u.email)
    && UniqueBy(db.users, (u: UserRec) => u.username)
    && UniqueBy(db.resources, (r: ResourceRec) => r.id)
    && UniqueBy(db.resources, (r: ResourceRec) => r.fileHash)
    && UniqueBy(db.groups, (g: GroupRec) => g.id)
    && UniqueBy(db.members, (m: MemberRec) => m.id)
    && UniqueBy(db.messages, (m: MessageRec) => m.id)
    && UniqueBy(db.directs, (m: DirectRec) => m.id)
  }

  /** Replacing a record by one with the same key keeps the keys unique. */
  lemma UniqueUpdate<T, K>(s: seq<T>, k: nat, x: T, key: T -> K)
    requires k < |s| && key(x) == key(s[k])
    ensures UniqueBy(s, key) ==> UniqueBy(s[k := x], key)
  {
  }

  /** Removing one record keeps the keys unique. */
  lemma UniqueRemove<T, K>(s: seq<T>, k: nat, key: T -> K)
    requires k < |s|
    ensures UniqueBy(s, key) ==> UniqueBy(s[..k] + s[k + 1..], key)
  {
    var t := s[..k] + s[k + 1..];
    forall i, j | 0 <= i < j < |t| && UniqueBy(s, key)
      ensures key(t[i]) != key(t[j])
    {
      var i' := if i < k then i else i + 1;
      var j' := if j < k then j else j + 1;
      assert t[i] == s[i'] && t[j] == s[j'];
    }
  }

  /** Changing records without changing their keys keeps the keys unique. */
  lemma UniqueSameKeys<T, K>(s: seq<T>, t: seq<T>, key: T -> K)
    requires |t| == |s| && forall i :: 0 <= i < |s| ==> key(t[i]) == key(s[i])
    ensures UniqueBy(s, key) ==> UniqueBy(t, key)
  {
  }

  /** Appending a record whose key is new keeps the keys unique. */
  lemma UniqueAppend<T, K>(s: seq<T>, key: T -> K, x: T)
    requires forall i :: 0 <= i < |s| ==> key(s[i]) != key(x)
    ensures UniqueBy(s, key) ==> UniqueBy(s + [x], key)
  {
  }

  /** The row id SQLite gives the next record: one more than the largest id in use. */
  function NextId(ids: seq<int>): (r: int)
    ensures r >= 1
    ensures forall i :: 0 <= i < |ids| ==> ids[i] < r
    decreases |ids|
  {
    if ids == [] then 1
    else
      var rest := NextId(ids[1..]);
      if ids[0] + 1 > rest then ids[0] + 1 else rest
  }

  function UserIds(db: Db): seq<int> {
    seq(|db.users|, i requires 0 <= i < |db.users| => db.users[i].id)
  }

  function ResourceIds(db: Db): seq<int> {
    seq(|db.resources|, i requires 0 <= i < |db.resources| => db.resources[i].id)
  }

  function GroupIds(db: Db): seq<int> {
    seq(|db.groups|, i requires 0 <= i < |db.groups| => db.groups[i].id)
  }

  function MemberIds(db: Db): seq<int> {
    seq(|db.members|, i requires 0 <= i < |db.members| => db.members[i].id)
  }

  function MessageIds(db: Db): seq<int> {
    seq(|db.messages|, i requires 0 <= i < |db.messages| => db.messages[i].id)
  }

  function DirectIds(db: Db): seq<int> {
    seq(|db.directs|, i requires 0 <= i < |db.directs| => db.directs[i].id)
  }

  /** `User.query.get(id)` */
  function FindUser(db: Db, id: int): (r: Option<UserRec>)
    ensures r.Some? ==> r.value in db.users && r.value.id == id
    ensures r.None? ==> forall i :: 0 <= i < |db.users| ==> db.users[i].id != id
  {
    UserWithId(db.users, id)
  }

  function UserWithId(users: seq<UserRec>, id: int): (r: Option<UserRec>)
    ensures r.Some? ==> r.value in users && r.value.id == id
    ensures r.None? ==> forall i :: 0 <= i < |users| ==> users[i].id != id
  {
    if users == [] then None
    else if users[0].id == id then Some(users[0])
    else UserWithId(users[1..], id)
  }

  /** The position of the resource with this id (`Resource.query.get(id)`). */
  function FindResource(rs: seq<ResourceRec>, id: int): (k: Option<nat>)
    ensures k.Some? ==> k.value < |rs| && rs[k.value].id == id
    ensures k.None? ==> forall i :: 0 <= i < |rs| ==> rs[i].id != id
    decreases |rs|
  {
    if rs == [] then None
    else if rs[0].id == id then Some(0)
    else match FindResource(rs[1..], id)
      case None => None
      case Some(k) => Some(k + 1)
  }

  /**
   * A value the sqlite3 driver can bind as a statement parameter. A list or
   * an object cannot be bound, so the commit raises and Flask answers 500.
   */
  predicate Bindable(v: Js.Value) {
    !v.Arr? && !v.Obj?
  }

  /**
   * The value SQLite keeps when a JSON value is written to, or compared with,
   * an INTEGER column: text that reads as a decimal integer becomes that
   * integer, a boolean is bound as 1 or 0, a missing value is NULL, and any
   * other value is kept as it is.
   */
  function Column(v: Js.Value): (c: Js.Value)
    ensures v.Str? && Strings.ParseInt(v.s).Some? ==> c == Js.Num(Strings.ParseInt(v.s).value)
    ensures v.Bool? ==> c == Js.Num(if v.b then 1 else 0)
    ensures v.Undefined? ==> c == Js.Null
    ensures !(v.Str? && Strings.ParseInt(v.s).Some?) && !v.Bool? && !v.Undefined? ==> c == v
    ensures c != Js.Undefined && !c.Bool?
  {
    match v
    case Undefined => Js.Null
    case Bool(b) => Js.Num(if b then 1 else 0)
    case Str(s) =>
      (match Strings.ParseInt(s)
       case Some(n) => Js.Num(n)
       case None => v)
    case _ => v
  }

  /**
   * The value SQLite keeps when a bindable JSON value is written to a TEXT
   * column: a number, or a boolean bound as 1 or 0, becomes its decimal
   * text; text and NULL are kept, and a missing value is NULL. What is stored reads back, under integer
   * affinity, as the number that was sent.
   */
  function TextColumn(v: Js.Value): (c: Js.Value)
    requires Bindable(v)
    ensures c.Str? || c.Null?
    ensures c.Null? <==> Js.Nullish(v)
    ensures v.Str? ==> c == v
    ensures v.Num? || v.Bool? ==> Column(c) == Column(v)
  {
    match v
    case Num(n) =>
      Strings.IntTextRoundTrip(n);
      Js.Str(Strings.IntText(n))
    case Bool(b) =>
      Strings.IntTextRoundTrip(if b then 1 else 0);
      Js.Str(Strings.IntText(if b then 1 else 0))
    case Undefined => Js.Null
    case _ => v
  }

  /** `data.get(k)` is truthy for a form of text fields: the field is present and not empty. */
  predicate Given(data: map<string, string>, k: string) {
    k in data && data[k] != ""
  }

  /** `data.get(k)`: the value under `k`, or undefined when the key is absent. */
  function Lookup(data: map<string, Js.Value>, k: string): Js.Value {
    if k in data then data[k] else Js.Undefined
  }

  /** The text of a JSON error body `{"error": message}`. */
  function Error(message: string): Js.Value {
    Js.Obj(map["error" := Js.Str(message)])
  }

  /** Flask's HTML error page: no JSON body. */
  const NoJson := Js.Undefined
}

=== FILE: strings.dfy ===
/** The string operations the client and the server apply to names, titles and messages. */
module Strings {
  import opened Wrappers

  /** `String.prototype.toLowerCase` on the ASCII letters. */
  function LowerChar(c: char): char {
    if 'A' <= c <= 'Z' then (c as int + 32) as char else c
  }

  function Lower(s: string): (r: string)
    ensures |r| == |s|
    ensures forall i :: 0 <= i < |s| ==> r[i] == LowerChar(s[i])
  {
    seq(|s|, i requires 0 <= i < |s| => LowerChar(s[i]))
  }

  /** `needle` sits in `hay` starting at index `i`. */
  predicate OccursAt(hay: string, needle: string, i: int) {
    0 <= i <= |hay| - |needle| && hay[i..i + |needle|] == needle
  }

  /** `hay` has `needle` as a contiguous piece somewhere. */
  ghost predicate Occurs(hay: string, needle: string) {
    exists i :: OccursAt(hay, needle, i)
  }

  /** `hay.includes(needle)`, searching left to right. */
  function Includes(hay: string, needle: string): (r: bool)
    ensures r <==> Occurs(hay, needle)
    decreases |hay|
  {
    if |needle| > |hay| then false
    else if hay[..|needle|] == needle then
      assert OccursAt(hay, needle, 0);
      true
    else
      var r := Includes(hay[1..], needle);
      if r then
        var i :| OccursAt(hay[1..], needle, i);
        assert OccursAt(hay, needle, i + 1) by {
          assert hay[i + 1..i + 1 + |needle|] == hay[1..][i..i + |needle|];
        }
        true
      else
        OccursPastHead(hay, needle);
        false
  }

  /** A text without capitals is its own lower case. */
  lemma LowerOfLower(s: string)
    requires forall i :: 0 <= i < |s| ==> !('A' <= s[i] <= 'Z')
    ensures Lower(s) == s
  {
  }

  /** An occurrence that is not at the head of `hay` is an occurrence in its tail. */
  lemma OccursPastHead(hay: string, needle: string)
    requires |needle| <= |hay| && hay[..|needle|] != needle
    ensures Occurs(hay, needle) ==> Occurs(hay[1..], needle)
  {
    if Occurs(hay, needle) {
      var i :| OccursAt(hay, needle, i);
      assert i != 0;
      assert OccursAt(hay[1..], needle, i - 1) by {
        assert hay[1..][i - 1..i - 1 + |needle|] == hay[i..i + |needle|];
      }
    }
  }

  /** The characters `String.prototype.trim` strips: WhiteSpace and LineTerminator of ECMA-262. */
  predicate IsSpace(c: char) {
    || c == ' ' || c == '\t' || c == '\n' || c == '\r'
    || c == '\U{000B}' || c == '\U{000C}' || c == '\U{00A0}' || c == '\U{FEFF}'
    || c == '\U{1680}' || ('\U{2000}' <= c <= '\U{200A}')
    || c == '\U{2028}' || c == '\U{2029}' || c == '\U{202F}' || c == '\U{205F}' || c == '\U{3000}'
  }

  predicate Blank(s: string) {
    forall i :: 0 <= i < |s| ==> IsSpace(s[i])
  }

  function TrimStart(s: string): (r: string)
    ensures |r| <= |s| && r == s[|s| - |r|..]
    ensures Blank(s[..|s| - |r|])
    ensures r != [] ==> !IsSpace(r[0])
    decreases |s|
  {
    if s != [] && IsSpace(s[0]) then
      var r := TrimStart(s[1..]);
      var cut := s[1..][..|s[1..]| - |r|];
      assert Blank(cut);
      assert forall i :: 1 <= i < |s| - |r| ==> s[i] == cut[i - 1];
      r
    else s
  }

  function TrimEnd(s: string): (r: string)
    ensures |r| <= |s| && r == s[..|r|]
    ensures Blank(s[|r|..])
    ensures r != [] ==> !IsSpace(r[|r| - 1])
    decreases |s|
  {
    if s != [] && IsSpace(s[|s| - 1]) then
      var r := TrimEnd(s[..|s| - 1]);
      assert s[|r|..] == s[..|s| - 1][|r|..] + [s[|s| - 1]];
      r
    else s
  }

  /** `s.trim()` */
  function Trim(s: string): string {
    TrimEnd(TrimStart(s))
  }

  /** `s.trim()` is the empty, falsy string exactly when every character of `s` is white space. */
  lemma TrimEmptyIffBlank(s: string)
    ensures Trim(s) == "" <==> Blank(s)
  {
    var t := TrimStart(s);
    if !Blank(s) {
      var i :| 0 <= i < |s| && !IsSpace(s[i]);
    }
  }

  /**
   * The text after the last `sep`, or all of `s` when it holds no `sep`:
   * JavaScript's `s.split(sep).pop()` and, when `sep` occurs, Python's
   * `s.rsplit(sep, 1)[1]`.
   */
  function AfterLast(s: string, sep: char): (r: string)
    ensures sep !in r
    ensures sep !in s ==> r == s
    ensures sep in s ==> |r| < |s| && s[|s| - |r| - 1] == sep && r == s[|s| - |r|..]
    decreases |s|
  {
    if s == [] then ""
    else if s[|s| - 1] == sep then ""
    else
      var front := s[..|s| - 1];
      var r := AfterLast(front, sep);
      assert s == front + [s[|s| - 1]];
      if sep in s then
        assert sep in front by {
          var k :| 0 <= k < |s| && s[k] == sep;
          assert front[k] == sep;
        }
        assert s[|s| - |r| - 1..] == front[|front| - |r|..] + [s[|s| - 1]];
        r + [s[|s| - 1]]
      else
        r + [s[|s| - 1]]
  }

  function DigitChar(d: int): char
    requires 0 <= d < 10
  {
    ('0' as int + d) as char
  }

  /** Decimal text of a non-negative integer, as a template literal prints it. */
  function NatText(n: nat): (r: string)
    ensures |r| >= 1
    decreases n
  {
    if n < 10 then [DigitChar(n)] else NatText(n / 10) + [DigitChar(n % 10)]
  }

  /** Decimal text of an integer, with a leading '-' when negative. */
  function IntText(n: int): string {
    if n < 0 then "-" + NatText(-n) else NatText(n)
  }

  predicate IsDigit(c: char) {
    '0' <= c <= '9'
  }

  predicate AllDigits(s: string) {
    forall i :: 0 <= i < |s| ==> IsDigit(s[i])
  }

  function DigitsValue(s: string): nat
    requires AllDigits(s)
    decreases |s|
  {
    if s == [] then 0
    else
      var d: int := s[|s| - 1] as int - '0' as int;
      assert 0 <= d;
      10 * DigitsValue(s[..|s| - 1]) + d
  }

  /**
   * The integer a decimal text denotes (an optional '-' and at least one
   * digit), the way SQLite reads text compared with an INTEGER column; None
   * for any other text.
   */
  function ParseInt(s: string): Option<int> {
    if s != [] && AllDigits(s) then Some(DigitsValue(s))
    else if |s| > 1 && s[0] == '-' && AllDigits(s[1..]) then Some(0 - DigitsValue(s[1..]) as int)
    else None
  }

  lemma {:induction false} NatTextRoundTrip(n: nat)
    ensures AllDigits(NatText(n)) && DigitsValue(NatText(n)) == n
    decreases n
  {
    if n >= 10 {
      NatTextRoundTrip(n / 10);
      var t := NatText(n);
      assert t[..|t| - 1] == NatText(n / 10);
    }
  }

  /** Printing an integer and reading the text back gives the integer. */
  lemma IntTextRoundTrip(n: int)
    ensures ParseInt(IntText(n)) == Some(n)
  {
    if n < 0 {
      NatTextRoundTrip(-n);
      assert IntText(n)[1..] == NatText(-n);
    } else {
      NatTextRoundTrip(n);
    }
  }
}

=== FILE: transport.dfy ===
/**
 * The shared HTTP client (frontend/src/services/api.js): a request
 * interceptor that attaches the stored token and a response interceptor
 * that tears the stored token down on 401.
 */
module Transport {
  import opened Wrappers
  import opened Http

  /**
   * Browser state the client touches outside React: the token kept in
   * localStorage under "access_token", the axios instance's default
   * Authorization header, and a full-page navigation requested through
   * `window.location.href` that has not happened yet.
   */
  datatype Env = Env(stored: Option<string>, defaultAuth: Option<string>, reloadTo: Option<string>)

  const AuthPath := "/auth"

  function Bearer(token: string): string {
    "Bearer " + token
  }

  /** `if (token)`: a missing key and the empty string are both falsy. */
  predicate HasToken(env: Env) {
    env.stored.Some? && env.stored.value != ""
  }

  /**
   * The headers axios hands to the request interceptor: the instance's
   * default Authorization header (when set) under the call's own headers.
   */
  function Prepared(env: Env, own: map<string, string>): map<string, string> {
    if env.defaultAuth.Some? && "Authorization" !in own then own["Authorization" := env.defaultAuth.value]
    else own
  }

  /** The request interceptor: headers as they leave the browser. */
  function Attach(env: Env, headers: map<string, string>): (h: map<string, string>)
    ensures HasToken(env) ==> "Authorization" in h && h["Authorization"] == Bearer(env.stored.value)
    ensures HasToken(env) ==> forall k :: k in headers && k != "Authorization" ==> k in h && h[k] == headers[k]
    ensures HasToken(env) ==> h.Keys == headers.Keys + {"Authorization"}
    ensures !HasToken(env) ==> h == headers
  {
    if HasToken(env) then headers["Authorization" := Bearer(env.stored.value)] else headers
  }

  /** The Authorization header a call made in `env` carries on the wire. */
  function SentAuthorization(env: Env, own: map<string, string>): Option<string> {
    var h := Attach(env, Prepared(env, own));
    if "Authorization" in h then Some(h["Authorization"]) else None
  }

  /**
   * With a stored token every call carries exactly `Bearer <token>`; without
   * one the interceptor adds nothing, so a call carries a header only through
   * the instance default or its own headers.
   */
  lemma BearerFollowsStoredToken(env: Env, own: map<string, string>)
    ensures HasToken(env) ==> SentAuthorization(env, own) == Some(Bearer(env.stored.value))
    ensures !HasToken(env) && "Authorization" !in own ==> SentAuthorization(env, own) == env.defaultAuth
  {
  }

  /**
   * The response interceptor. Success passes through untouched; every
   * rejection is re-thrown to the caller unchanged; a 401 response first
   * removes the stored token and requests navigation to the sign-in page.
   * The default header is left as it is.
   */
  function Respond<T>(env: Env, o: Outcome<T>): (r: (Env, Outcome<T>))
    ensures r.1 == o
    ensures o == Err(Some(401)) ==> r.0 == Env(None, env.defaultAuth, Some(AuthPath))
    ensures o != Err(Some(401)) ==> r.0 == env
  {
    match o
    case Ok(_) => (env, o)
    case Err(status) =>
      if status == Some(401) then (env.(stored := None, reloadTo := Some(AuthPath)), o)
      else (env, o)
  }
}

=== FILE: upload_page.dfy ===
/**
 * The upload page (frontend/src/pages/UploadPage.jsx): a file plus the
 * title/description/category form, submitted as one multipart post.
 */
module UploadPage {
  import opened Wrappers
  import Js
  import opened Http
  import opened ResourceForm

  datatype Upload = Upload(file: Option<File>, uploading: bool, success: bool, form: Fields)

  /**
   * The outcome of one submit: the page while the post is pending (None when
   * nothing was posted), the page afterwards, the calls made, the alert shown
   * and whether a navigation to `/` was scheduled.
   */
  datatype Submitted = Submitted(pending: Option<Upload>, page: Upload, requests: seq<Request>,
                                 alert: Option<string>, navigateLater: bool)

  const ResourcesPath := "/api/resources"
  const NoFileAlert := "Please select a file to upload"
  const FailureAlert := "Failed to upload resource. Please try again."

  function Initial(): Upload {
    Upload(None, false, false, Fields("", Some(""), ""))
  }

  /** `handleFormChange` */
  function Change(u: Upload, name: Field, value: string): (r: Upload)
    ensures Read(r.form, name) == Some(value)
    ensures forall other :: other != name ==> Read(r.form, other) == Read(u.form, other)
    ensures r.file == u.file && r.uploading == u.uploading && r.success == u.success
  {
    u.(form := Update(u.form, name, value))
  }

  /** `disabled={uploading || !file}` */
  predicate SubmitDisabled(u: Upload) {
    u.uploading || u.file.None?
  }

  /**
   * `handleSubmit`: without a file, an alert and nothing else. Otherwise
   * `uploading` holds while the post is pending and is cleared afterwards;
   * `success` and the delayed navigation follow only a successful post.
   */
  function Submit(u: Upload, post: Outcome<Js.Value>): (r: Submitted)
    ensures u.file.None? ==> r == Submitted(None, u, [], Some(NoFileAlert), false)
    ensures u.file.Some? ==>
      && r.requests == [PostForm(ResourcesPath, u.file.value, MultipartFields(u.form))]
      && r.pending == Some(u.(uploading := true))
      && !r.page.uploading
      && r.page.form == u.form && r.page.file == u.file
    ensures u.file.Some? && post.Ok? ==> r.page.success && r.navigateLater && r.alert.None?
    ensures u.file.Some? && post.Err? ==> r.page.success == u.success && !r.navigateLater && r.alert == Some(FailureAlert)
  {
    match u.file
    case None => Submitted(None, u, [], Some(NoFileAlert), false)
    case Some(f) =>
      var pending := u.(uploading := true);
      var req := PostForm(ResourcesPath, f, MultipartFields(u.form));
      match post
      case Ok(_) => Submitted(Some(pending), pending.(success := true, uploading := false), [req], None, true)
      case Err(_) => Submitted(Some(pending), pending.(uploading := false), [req], Some(FailureAlert), false)
  }

  /** The button is disabled while a submit is pending, so a second post cannot start from it. */
  lemma PendingDisablesSubmit(u: Upload, post: Outcome<Js.Value>)
    requires Submit(u, post).pending.Some?
    ensures SubmitDisabled(Submit(u, post).pending.value)
    ensures !SubmitDisabled(u) ==> Submit(u, post).requests != []
  {
  }
}

=== FILE: wrappers.dfy ===
/** Optional values: JavaScript's null, Python's None, an absent form or JSON field. */
module Wrappers {

  datatype Option<+T> = None | Some(value: T) {

    /** The wrapped value, or `default` when there is none. */
    function GetOr(default: T): T {
      match this
      case Some(v) => v
      case None => default
    }
  }
}
